=== FILE: README.md ===
# SendGrid X-SMTPAPI header builder, modelled in Dafny

The sendgrid gem lets an ActionMailer mailer attach an `X-SMTPAPI` header to
each outgoing mail: a JSON document that tells SendGrid which filters to apply
(open and click tracking, Google Analytics, subscription tracking, footer, spam
check, ...), which category to file the mail under, which per-recipient
substitutions to perform and which unique arguments to attach. The settings
come from two levels: defaults stored on the mailer class by `ClassMethods`,
and overrides stored on the mailer instance while one mailer method runs.

This project models `lib/sendgrid.rb` as a pure pipeline:

- `Options` holds the closed registries `VALID_OPTIONS` and
  `VALID_GANALYTICS_OPTIONS`, and the filters through which the enable,
  disable and Google-Analytics setters pass their arguments.
- `Config` holds the class configuration (`default_sg_*`) and the message
  configuration (`@sg_*`). It also holds every setter, as a function from
  record to record.
- `Validation` holds the checks `mail` performs before the header is
  attached. Each check that raises `ArgumentError` in Ruby becomes a `Fail`
  carrying the check.
- `Filters` holds `filters_hash_from_options`: the per-feature settings, and
  disabled options overwriting enabled ones.
- `Header` holds `prepare_recipients`, the four `build_*_headers` steps, the
  fixed key order of the document, the printed and cleaned-up text of
  `headers_as_json_for_sendgrid`, and `mail` itself.
- `Effects` follows each setter's stored value through the builder to the
  part of the header it decides.
- `Cleanup` holds the regular-expression substitution that inserts a space
  after `,` or `:`. It is a left-to-right, non-overlapping rewrite on
  `seq<char>`, with the one-pass `method Clean` proved equal to it.
- `Hashes` holds Ruby's insertion-ordered `Hash`: an association list with
  unique keys, plus `h[k] = v`, `merge` and lookup.
- `Json` holds a JSON value type and a compact printer standing in for
  `to_json`.
- `Scenarios` restates the examples of `spec/sendgrid_spec.rb` about the
  model.

A Ruby argument naming an option or a category is a `Name`, which is either a
symbol or a string. The distinction matters in three places:

- `VALID_OPTIONS.include?` and `Array#delete` accept only symbols.
- The Google-Analytics filter and the class-level category check both call
  `to_sym`, so a string works there too.
- The instance-level category check compares with `==`, so only the symbol
  `:use_subject_lines` counts as the sentinel.

In a few places the code behaves differently from what one might assume. The
model follows the code in each case:

- A later Google-Analytics pair with the same key overwrites the earlier one.
  The code assigns into a hash, so the key is not emitted twice.
- A class-level `sendgrid_disable` exists. It deletes from the class defaults.
- The instance-level `sendgrid_disable` drops names outside `VALID_OPTIONS`,
  as enable does.
- An empty `:to` array is rejected with the ":to needs to be an array" error,
  because `[].present?` is false. The "at least one recipient required" check
  after it can never fire (`Validation.NoRecipientsUnreachable`).
- The clean-up regex does not recognise string literals. Parsing the header
  back therefore does not always give the document that was printed:
  `Scenarios.CleanupAltersStringValues` shows a category value `a],[b` that
  comes out as `a], [b`. What does hold is weaker:
  - the clean-up only inserts spaces (`Cleanup.SpacedOnlyAddsSpaces`);
  - deleting them restores the text whenever no separator in it was already
    followed by a space (`Cleanup.UnspaceSpaced`).

## Model

| member | source | states |
|---|---|---|
| Options.FeatureOf | lib/sendgrid.rb:8-17 | a name is recognised as an option exactly when it is the symbol of one of the eight members of `VALID_OPTIONS`; a string never is |
| Options.AnalyticsKeyOf | lib/sendgrid.rb:19-25 | a Google-Analytics key is recognised exactly when its `to_s` spells one of the five `utm_*` members, symbol or string alike |
| Options.ValidFeaturesCount | lib/sendgrid.rb:89-92 | `ValidFeatures`, the `VALID_OPTIONS.include?` filter of enable and instance disable: after filtering, each member occurs exactly as many times as its symbol occurs among the arguments: unknown names are dropped and duplicates are kept |
| Options.ValidFeaturesAppend | lib/sendgrid.rb:142-145 | filtering distributes over concatenation, so two enable calls with `a` then `b` store what one call with `a + b` would |
| Options.ValidAnalyticsOne | lib/sendgrid.rb:186 | `ValidAnalytics` on one pair: the pair survives exactly when its key, converted with `to_sym`, is one of the five `utm_*` members, and then keeps its value with that member as key |
| Options.ValidAnalyticsAppend | lib/sendgrid.rb:184-187 | filtering the Google-Analytics pairs distributes over concatenation and keeps the argument order; with `ValidAnalyticsOne` this fixes the filter on every list |
| Options.ValidAnalyticsFrom | lib/sendgrid.rb:186 | every retained pair comes from an argument pair whose key spells it and whose value it keeps, and no more pairs come out than went in |
| Options.Delete | lib/sendgrid.rb:96 | `options.delete(option)` removes every occurrence of the named member and leaves the count of every other member unchanged |
| Options.DeleteEachIsWithout | lib/sendgrid.rb:94-97 | `DeleteEach`, the class-level disable loop: deleting the arguments one after another equals a single order-preserving filter of the defaults against all the arguments: a named member is gone entirely, and every other member keeps its count |
| Config.ClassCategory | lib/sendgrid.rb:74-76 | the class category becomes the argument and nothing else in the class configuration changes |
| Config.ClassEnable | lib/sendgrid.rb:89-92 | the old defaults stay as a prefix; each member's count grows by the number of times its symbol was passed; nothing else changes |
| Config.ClassEnableTwice | lib/sendgrid.rb:89-92 | two class-level enables equal one enable with both argument lists |
| Config.ClassDisable | lib/sendgrid.rb:94-97 | the defaults lose every occurrence of each named member and keep the rest in order; nothing else changes |
| Config.ClassSubscriptionText | lib/sendgrid.rb:105-107 | the class subscription text is set and nothing else changes |
| Config.ClassFooterText | lib/sendgrid.rb:112-114 | the class footer text is set and nothing else changes |
| Config.ClassSpamcheckScore | lib/sendgrid.rb:117-119 | the class spam-check score is set and nothing else changes |
| Config.ClassUniqueArgs | lib/sendgrid.rb:124-126 | the class unique arguments are replaced, not merged, and nothing else changes |
| Config.Category | lib/sendgrid.rb:131-133 | the instance category is set and nothing else changes |
| Config.UniqueArgs | lib/sendgrid.rb:137-139 | the instance unique arguments are replaced and nothing else changes |
| Config.Enable | lib/sendgrid.rb:142-145 | the instance additions keep their old prefix; each member's count grows by the number of times its symbol was passed; nothing else changes |
| Config.Disable | lib/sendgrid.rb:148-151 | the disabled list keeps its old prefix and grows by the recognised arguments only; nothing else changes |
| Config.EnableTwice | lib/sendgrid.rb:142-151 | two instance enables, or two disables, equal one call with both argument lists |
| Config.Substitute | lib/sendgrid.rb:162-165 | the placeholder maps to the new list; every other placeholder keeps its list; a new placeholder goes last and a repeated one keeps its position |
| Config.SubstituteNew | lib/sendgrid.rb:162-165 | a placeholder not set before is appended after the existing ones |
| Config.SubscriptionText | lib/sendgrid.rb:168-170 | the instance subscription text is set and nothing else changes |
| Config.FooterText | lib/sendgrid.rb:173-175 | the instance footer text is set and nothing else changes |
| Config.SpamcheckScore | lib/sendgrid.rb:178-180 | the instance spam-check score is set and nothing else changes |
| Config.GanalyticsOptions | lib/sendgrid.rb:184-187 | the instance pairs are replaced by the filtered argument pairs (fixed by `Options.ValidAnalyticsOne` and `Options.ValidAnalyticsAppend`); each stored pair comes from an argument pair with that key spelled and that value; nothing else changes |
| Config.GanalyticsOptionsReplace | lib/sendgrid.rb:185 | a second call discards the pairs of the first |
| Config.AnonymizeRecipients | lib/sendgrid.rb:189-191 | recipients become hidden and nothing else changes |
| Config.PublicizeRecipients | lib/sendgrid.rb:196-198 | recipients become visible and nothing else changes |
| Validation.Presence | lib/sendgrid.rb:205-206 | `SenderPresent` and `ToPresent`, the `present?` tests: `nil`, an empty or all-white-space string and an empty array are absent; a string with any other character and a non-empty array are present |
| Validation.FirstMismatch | lib/sendgrid.rb:228-232 | the first placeholder, in insertion order, whose list length differs from the recipient count; none exactly when every list has the right length |
| Validation.Validate | lib/sendgrid.rb:203-234 | passes exactly when the sender is present, `:to` is a non-empty array and every substitution list matches its length; otherwise it reports the first failing check in source order, and a mismatch names a placeholder whose predecessors all match |
| Validation.NoRecipientsUnreachable | lib/sendgrid.rb:206-207 | the "at least one recipient" error never occurs; an empty array fails the previous check instead |
| Filters.SubscriptionTrackSettings | lib/sendgrid.rb:348-365 | `enable` is 1; a text with `replace` gives exactly the keys `enable`, `replace`; otherwise exactly `enable`, `text/html`, `text/plain` in that order, `null` where the text lacks them; without a text, only `enable` |
| Filters.FooterSettings | lib/sendgrid.rb:367-374 | `enable` is 1; with a text, exactly the keys `enable`, `text/html`, `text/plain` in that order, `null` where the text lacks them; without a text, only `enable` |
| Filters.SpamCheckSettings | lib/sendgrid.rb:376-379 | `enable` is 1; with a score, exactly the keys `enable`, `maxscore`, with that score; without one, only `enable` |
| Filters.GAnalyticsSettings | lib/sendgrid.rb:381-386 | `enable` stays 1; each key appears once, in first-seen order after `enable`, with the value of its last pair |
| Filters.GAnalyticsLastWins | lib/sendgrid.rb:383-385 | the value carried for a key is that of the last pair with that key |
| Filters.EnabledSettings | lib/sendgrid.rb:347-379 | every enabled option's settings have `enable` equal to 1; `opentrack`, `clicktrack`, `gravatar` and `bypass_list_management` get exactly `{enable: 1}`, and so do `subscriptiontrack`, `footer` and `spamcheck` when neither level set their text or score |
| Filters.InstanceSettingsWin | lib/sendgrid.rb:350-378 | with an instance text or score set, the class default has no influence on the settings |
| Filters.InstanceSettings | lib/sendgrid.rb:350-379 | with an instance text or score set, the feature's settings are made from that instance value |
| Filters.ClassSettingsApply | lib/sendgrid.rb:358-378 | with no instance value, the class default gives the same settings it would give if it were set on the instance |
| Filters.FiltersHash | lib/sendgrid.rb:343-396 | one entry per option named in either list, in first-mention order; a disabled option is exactly `enable: 0` even when also enabled; an enabled one carries its settings; empty exactly when both lists are |
| Header.Recipients | lib/sendgrid.rb:236-246 | `to` is present exactly when recipients are not publicised, and then it lists the message's addresses |
| Header.UniqueArgsHeader | lib/sendgrid.rb:248-263 | present exactly when either level has arguments; each key looks up the instance value if the instance has it, else the class value; the class keys come first, then the keys only the instance has, in the instance's order |
| Header.CategoryHeader | lib/sendgrid.rb:265-287 | absent exactly when neither level sets a category; otherwise it is the subject or the text of the value in effect |
| Header.CategoryInstanceWins | lib/sendgrid.rb:267-273 | with an instance category set, the class default has no influence |
| Header.CategorySentinel | lib/sendgrid.rb:265-283 | the subject is used exactly for the instance symbol `:use_subject_lines`, or, with no instance value, for a class value whose text is `use_subject_lines`; otherwise the result does not depend on the subject |
| Header.SubstitutionsHeader | lib/sendgrid.rb:289-292 | present exactly when substitutions exist, and then equal to them, `null` entries included |
| Header.EnabledOptions | lib/sendgrid.rb:298-311 | the enabled list is the class defaults followed by the instance additions, so an option is enabled exactly when either level enables it |
| Header.FiltersHeader | lib/sendgrid.rb:296-322 | present exactly when some option is enabled at either level or disabled at instance level; disable wins; keys in first-mention order |
| Header.FiltersJson | lib/sendgrid.rb:343-396 | `filters` as printed: one member per feature of the hash, in its order, named as in `VALID_OPTIONS` and without repeats; under each name the feature's settings inside the wrapper `{"settings": ...}` of :348 and :392 |
| Header.SubJson | lib/sendgrid.rb:291 | `sub` as printed: the placeholders in insertion order, each holding its list of values as a JSON array |
| Header.Build | lib/sendgrid.rb:324-333 | each of the five parts is present exactly under the condition its builder step states |
| Header.MembersOrdered | lib/sendgrid.rb:326-333 | the members come in strictly increasing order `to`, `unique_args`, `category`, `sub`, `filters`, each one present exactly when its value is |
| Header.PartsOrdered | lib/sendgrid.rb:326-333 | the document's keys follow that fixed order, each present exactly when the built header holds it |
| Header.HeaderTextOnlyAddsSpaces | lib/sendgrid.rb:324-337 | `HeaderText`, the result of `headers_as_json_for_sendgrid`: the header text is the printed document with every character kept in order and only spaces inserted; with spaces removed the two are equal, and the header is not shorter |
| Header.Mail | lib/sendgrid.rb:203-222 | a header is produced exactly when validation passes; otherwise the first failing check's error is returned |
| Effects.CategoryReachesHeader | lib/sendgrid.rb:271-273 | after an instance `sendgrid_category` with anything but the sentinel, the header's category is its text, whatever the class default |
| Effects.SubjectLinesReachHeader | lib/sendgrid.rb:267-269 | after an instance `sendgrid_category :use_subject_lines`, the header's category is the subject |
| Effects.ClassSubjectLinesReachHeader | lib/sendgrid.rb:275-277 | a class category spelled `use_subject_lines`, symbol or string, makes the subject the category when the instance sets none |
| Effects.VisibilityReachesHeader | lib/sendgrid.rb:236-246 | after publicising, `to` is absent; after anonymising, `to` lists the message's addresses |
| Effects.UniqueArgsReachHeader | lib/sendgrid.rb:248-263 | after an instance `sendgrid_unique_args`, the header's unique arguments are the class ones overridden by the new hash |
| Effects.EnableReachesFilters | lib/sendgrid.rb:347-348 | an option recognised in an instance enable, and not disabled, appears in `filters` with `enable: 1` |
| Effects.DisableReachesFilters | lib/sendgrid.rb:390-394 | an option recognised in an instance disable appears in `filters` as exactly `enable: 0`, whatever enables it |
| Effects.ClassDisableReachesFilters | lib/sendgrid.rb:94-97 | after a class-level disable, the option has no entry in `filters` unless the instance enables or disables it |
| Effects.SettingsInHeader | lib/sendgrid.rb:313-316 | an option enabled at either level and not disabled appears in `filters` with its enabled settings |
| Effects.ScoreReachesFilters | lib/sendgrid.rb:376-379 | after an instance `sendgrid_spamcheck_maxscore`, an enabled `spamcheck` carries that score, whatever the class score |
| Effects.FooterReachesFilters | lib/sendgrid.rb:367-370 | after an instance `sendgrid_footer_text`, an enabled `footer` carries that text, whatever the class text |
| Effects.SubscriptionTextReachesFilters | lib/sendgrid.rb:350-357 | after an instance `sendgrid_subscriptiontrack_text`, an enabled `subscriptiontrack` carries that text, whatever the class text |
| Effects.GanalyticsReachesFilters | lib/sendgrid.rb:381-386 | after `sendgrid_ganalytics_options`, an enabled `ganalytics` carries exactly the recognised pairs of that call |
| Effects.SubstituteChecked | lib/sendgrid.rb:228-231 | a substitution list whose length differs from the `:to` array makes `mail` refuse the message |
| Cleanup.Clean | lib/sendgrid.rb:336 | `Spaced`, the recursive definition of the `gsub`, is what a one-pass left-to-right scan that never revisits a match computes |
| Cleanup.SpacedOnlyAddsSpaces | lib/sendgrid.rb:336 | the substitution only inserts spaces: the input survives in order and every other character of the output is a space (`SpacesInserted`); stripping spaces from input and output gives the same text, and it never shortens |
| Cleanup.SpacesInsertedKeepsSpaces | lib/sendgrid.rb:336 | `SpacesInserted` is stronger than equality with spaces removed: moving an existing space, as from `a b` to `ab  `, keeps the stripped text but is not an insertion of spaces |
| Cleanup.UnspaceSpaced | lib/sendgrid.rb:336 | deleting the inserted spaces restores the input whenever no separator in it was already followed by a space |
| Cleanup.UnspaceNeedsPrecondition | lib/sendgrid.rb:336 | without that condition, an existing space after a separator is indistinguishable from an inserted one |
| Cleanup.SpacedWithoutMatch | lib/sendgrid.rb:336 | text in which no match starts passes through unchanged |
| Hashes.Put | lib/sendgrid.rb:164 | `h[k] = v` makes `k` look up `v` and leaves every other key's value alone; an existing key keeps its position and a new key is appended |
| Hashes.Merge | lib/sendgrid.rb:255 | `a.merge(b)`: the keys of `b` take `b`'s values, the others keep `a`'s; `a`'s keys stay first, followed by the keys only `b` has, in `b`'s order; empty exactly when both are |
| Scenarios.ClassCategoryExample | spec/sendgrid_spec.rb:19-28 | a class-level category `"category_1"` becomes the header's category |
| Scenarios.InstanceCategoryExample | spec/sendgrid_spec.rb:36-48 | an instance-level category `"category_1"` gives the document with `to` and then `category` |
| Scenarios.UniqueArgsExample | spec/sendgrid_spec.rb:52-64 | instance unique arguments `{campaign_id: 12345}` give the document with `to` and then `unique_args` |
| Scenarios.RequiresSenderExample | spec/sendgrid_spec.rb:70-87 | a mail without a sender is refused |
| Scenarios.RequiresRecipientExample | spec/sendgrid_spec.rb:91-108 | a mail without `:to` is refused |
| Scenarios.RecipientsExample | spec/sendgrid_spec.rb:112-130 | both recipient addresses go into `to`, in order |
| Scenarios.SubstitutionsExample | spec/sendgrid_spec.rb:136-158 | two substitutions give the JSON document holding `to`, the two addresses, and then `sub`: the first-name placeholder with the array `["Cosmo", "Newman"]` followed by the last-name placeholder with `["Kramer", null]`; the mail passes validation |
| Scenarios.SubSpacingExample | spec/sendgrid_spec.rb:158 | the clean-up puts a space between two strings of an array |
| Scenarios.NullSpacingExample | spec/sendgrid_spec.rb:158 | the clean-up adds no space before `null` |
| Scenarios.SubstitutionMismatchExample | spec/sendgrid_spec.rb:162-182 | one name for two recipients is refused, naming the placeholder |
| Scenarios.EmptyHeaderExample | lib/sendgrid.rb:324-336 | with nothing configured and recipients publicised, the header is `{}` |
| Scenarios.CleanupAltersStringValues | lib/sendgrid.rb:336 | the clean-up changes a string value that contains `],[`, so parsing the header back is not an inverse of printing it |

## Left out

- ActionMailer integration is not modelled. This covers the `included`/`class_eval` hooks, `super.tap`, the assignment into `self.headers` and the `DEBUG` constant. The model only decides whether a header is produced and what it is (`Header.Mail`).
- Address parsing by the mail library is left out. `message.to.to_a` and `message.subject` are inputs (`Header.Message`).
- Ruby's `to_json` is replaced by a compact printer. The printer escapes only `"` and `\`. Control characters, Unicode escapes and number formatting are not modelled, because they come from a foreign library.
- The spam-check score is an integer. Float scores are not modelled.
- `present?` on a string treats only ASCII white space as blank. Unicode white space is not modelled.
- A `:from` given as an array, and other dynamically typed arguments, are not modelled. Each setter takes typed arguments. Hash keys of the unique arguments and substitutions are plain strings, so symbol-versus-string hash keys are not distinguished.
- Class-level settings apply to the exact mailer class only. Ruby keeps them in instance variables of the class object (`class << self` at lib/sendgrid.rb:33-41), which a subclass does not inherit; the model has one `ClassConfig` per mailer and no subclass lookup.
- The class default list is never mutated while a header is built. In this model that holds by construction, since every record is immutable. No separate lemma states it.
- Scenarios.InstanceCategoryExample: states the JSON document, not the spaced text the test searches for.
- Scenarios.UniqueArgsExample: states the JSON document, not the spaced text the test searches for.
- Scenarios.RecipientsExample: states the `to` part of the document, not the spaced text the test searches for.
- Scenarios.SubstitutionsExample: states the JSON document, not the spaced text the test searches for.
- Filters.EnabledSettings: for `subscriptiontrack`, `footer`, `spamcheck` and `ganalytics` its own contract states only `enable: 1`. The other keys are stated by the per-feature members it selects between: `Filters.SubscriptionTrackSettings`, `Filters.FooterSettings`, `Filters.SpamCheckSettings` and `Filters.GAnalyticsSettings`. Which text or score they are given is stated by `Filters.InstanceSettings` (an instance value is set), `Filters.ClassSettingsApply` (only the class value is set) and its own contract (neither is set).

=== FILE: cleanup.dfy ===
/** The "clean up json" step of `headers_as_json_for_sendgrid` (lib/sendgrid.rb):
    `gsub(/(["\]}])([,:])(["\[{])/, '\1\2 \3')`. Scanning left to right, every
    three characters made of a closing `"`, `]` or `}`, a separator `,` or `:` and
    an opening `"`, `[` or `{` get one space between separator and opener, and the
    scan resumes after the third character, so matches never overlap. The regex
    does not know about string literals. */
module Cleanup {
  import opened Json
  import opened Seqs

  predicate Closer(c: char)
  {
    c == '"' || c == ']' || c == '}'
  }

  predicate Separator(c: char)
  {
    c == ',' || c == ':'
  }

  predicate Opener(c: char)
  {
    c == '"' || c == '[' || c == '{'
  }

  predicate MatchAt(s: string, i: nat)
  {
    i + 3 <= |s| && Closer(s[i]) && Separator(s[i + 1]) && Opener(s[i + 2])
  }

  /** The text after the substitution. */
  function Spaced(s: string): string
  {
    if MatchAt(s, 0) then [s[0], s[1], ' ', s[2]] + Spaced(s[3..])
    else if |s| == 0 then []
    else [s[0]] + Spaced(s[1..])
  }

  /** The substitution as a single left-to-right pass over the text. */
  method Clean(s: string) returns (r: string)
    ensures r == Spaced(s)
  {
    r := [];
    var i := 0;
    while i < |s|
      invariant 0 <= i <= |s|
      invariant r + Spaced(s[i..]) == Spaced(s)
    {
      assert MatchAt(s, i) <==> MatchAt(s[i..], 0);
      if MatchAt(s, i) {
        var group := [s[i], s[i + 1], ' ', s[i + 2]];
        assert Spaced(s[i..]) == group + Spaced(s[i + 3..]) by {
          assert s[i..][3..] == s[i + 3..];
        }
        Associative(r, group, Spaced(s[i + 3..]));
        r := r + group;
        i := i + 3;
      } else {
        assert Spaced(s[i..]) == [s[i]] + Spaced(s[i + 1..]) by {
          assert s[i..][1..] == s[i + 1..];
        }
        Associative(r, [s[i]], Spaced(s[i + 1..]));
        r := r + [s[i]];
        i := i + 1;
      }
    }
    assert s[i..] == [];
  }

  function StripSpaces(s: string): string
  {
    if |s| == 0 then [] else (if s[0] == ' ' then [] else [s[0]]) + StripSpaces(s[1..])
  }

  lemma {:induction false} StripSpacesAppend(a: string, b: string)
    ensures StripSpaces(a + b) == StripSpaces(a) + StripSpaces(b)
  {
    if |a| == 0 {
      assert a + b == b;
    } else {
      var c := a + b;
      var head := if a[0] == ' ' then [] else [a[0]];
      assert StripSpaces(c) == head + StripSpaces(a[1..] + b) by {
        assert c[1..] == a[1..] + b;
        assert c[0] == a[0];
      }
      StripSpacesAppend(a[1..], b);
      Associative(head, StripSpaces(a[1..]), StripSpaces(b));
    }
  }

  lemma StripGroup(a: char, b: char, c: char)
    requires a != ' ' && b != ' ' && c != ' '
    ensures StripSpaces([a, b, ' ', c]) == [a, b, c]
    ensures StripSpaces([a, b, c]) == [a, b, c]
  {
    assert StripSpaces([c]) == [c] + StripSpaces([]);
    assert [' ', c][1..] == [c];
    assert StripSpaces([' ', c]) == StripSpaces([c]);
    assert [b, ' ', c][1..] == [' ', c];
    assert StripSpaces([b, ' ', c]) == [b] + StripSpaces([' ', c]);
    assert [a, b, ' ', c][1..] == [b, ' ', c];
    assert StripSpaces([a, b, ' ', c]) == [a] + StripSpaces([b, ' ', c]);
    assert [b, c][1..] == [c];
    assert StripSpaces([b, c]) == [b] + StripSpaces([c]);
    assert [a, b, c][1..] == [b, c];
    assert StripSpaces([a, b, c]) == [a] + StripSpaces([b, c]);
  }

  /** `t` is `s` with spaces inserted: every character of `s` is kept, in order,
      and every character of `t` not taken from `s` is a space. */
  predicate SpacesInserted(s: string, t: string)
    decreases |t|
  {
    if |t| == 0 then |s| == 0
    else || (|s| > 0 && t[0] == s[0] && SpacesInserted(s[1..], t[1..]))
         || (t[0] == ' ' && SpacesInserted(s, t[1..]))
  }

  /** Equal text once spaces are removed is weaker: it lets a space move. */
  lemma SpacesInsertedKeepsSpaces()
    ensures StripSpaces("ab  ") == StripSpaces("a b")
    ensures !SpacesInserted("a b", "ab  ")
  {
    assert !SpacesInserted(" b", "b  ");
    assert !SpacesInserted("a b", "b  ");
  }

  /** The substitution adds spaces and nothing else: the input survives in order
      with only spaces inserted, so with every space removed input and output are
      the same text. */
  lemma {:induction false} SpacedOnlyAddsSpaces(s: string)
    ensures SpacesInserted(s, Spaced(s))
    ensures StripSpaces(Spaced(s)) == StripSpaces(s)
    ensures |Spaced(s)| >= |s|
  {
    if MatchAt(s, 0) {
      var rest := Spaced(s[3..]);
      SpacedOnlyAddsSpaces(s[3..]);
      var t := [s[0], s[1], ' ', s[2]] + rest;
      assert t[3..][1..] == rest && s[2..][1..] == s[3..];
      assert SpacesInserted(s[2..], t[3..]);
      assert t[2..][1..] == t[3..];
      assert SpacesInserted(s[2..], t[2..]);
      assert t[1..][1..] == t[2..] && s[1..][1..] == s[2..];
      assert SpacesInserted(s[1..], t[1..]);
      assert SpacesInserted(s, t);
      StripSpacesAppend([s[0], s[1], ' ', s[2]], rest);
      StripSpacesAppend([s[0], s[1], s[2]], s[3..]);
      assert s == [s[0], s[1], s[2]] + s[3..];
      StripGroup(s[0], s[1], s[2]);
    } else if |s| > 0 {
      SpacedOnlyAddsSpaces(s[1..]);
      assert ([s[0]] + Spaced(s[1..]))[1..] == Spaced(s[1..]);
      StripSpacesAppend([s[0]], Spaced(s[1..]));
      StripSpacesAppend([s[0]], s[1..]);
      assert s == [s[0]] + s[1..];
    }
  }

  /** Deleting the space of every `closer, separator, space, opener` group, left to
      right: the inverse of the substitution. */
  function Unspace(t: string): string
  {
    if |t| >= 4 && Closer(t[0]) && Separator(t[1]) && t[2] == ' ' && Opener(t[3]) then
      [t[0], t[1], t[3]] + Unspace(t[4..])
    else if |t| == 0 then []
    else [t[0]] + Unspace(t[1..])
  }

  /** No separator is followed by a space, as in the compact JSON text outside
      string literals. */
  predicate NoSpaceAfterSeparator(s: string)
  {
    forall i :: 0 <= i < |s| - 1 && Separator(s[i]) ==> s[i + 1] != ' '
  }

  /** The substitution keeps the first two characters of its input. */
  lemma {:induction false} SpacedKeepsStart(s: string)
    ensures |s| >= 1 ==> |Spaced(s)| >= 1 && Spaced(s)[0] == s[0]
    ensures |s| >= 2 ==> |Spaced(s)| >= 2 && Spaced(s)[1] == s[1]
    ensures |s| < 3 ==> Spaced(s) == s
  {
    if !MatchAt(s, 0) && |s| > 0 {
      SpacedKeepsStart(s[1..]);
      assert |s| < 3 ==> s == [s[0]] + s[1..];
    }
  }

  /** Deleting the inserted spaces gives back the input, for any input in which no
      separator was already followed by a space. */
  lemma {:induction false} UnspaceSpaced(s: string)
    requires NoSpaceAfterSeparator(s)
    ensures Unspace(Spaced(s)) == s
  {
    if MatchAt(s, 0) {
      var rest := Spaced(s[3..]);
      UnspaceSpaced(s[3..]);
      var t := [s[0], s[1], ' ', s[2]] + rest;
      assert t[4..] == rest;
      assert Unspace(t) == [s[0], s[1], s[2]] + Unspace(rest);
      assert s == [s[0], s[1], s[2]] + s[3..];
    } else if |s| > 0 {
      var rest := Spaced(s[1..]);
      UnspaceSpaced(s[1..]);
      var t := [s[0]] + rest;
      assert t[1..] == rest;
      SpacedKeepsStart(s[1..]);
      if |s| >= 3 {
        SpacedKeepsStart(s[2..]);
        assert t[2] == s[2] by {
          if MatchAt(s[1..], 0) {
            assert rest[1] == s[2];
          } else {
            assert rest == [s[1]] + Spaced(s[2..]);
          }
        }
        assert Separator(s[1]) ==> s[2] != ' ';
      }
      assert Unspace(t) == [s[0]] + Unspace(rest);
      assert s == [s[0]] + s[1..];
    }
  }

  /** Without the precondition the inverse fails: a separator already followed by
      a space is indistinguishable from an inserted one. */
  lemma UnspaceNeedsPrecondition()
    ensures Spaced("\", {") == "\", {"
    ensures Unspace(Spaced("\", {")) == "\",{"
  {
    assert !MatchAt("\", {", 0);
    assert !MatchAt("\", {"[1..], 0);
  }

  /** Text without a match passes through unchanged. */
  lemma {:induction false} SpacedWithoutMatch(s: string)
    requires forall i :: 0 <= i < |s| ==> !MatchAt(s, i)
    ensures Spaced(s) == s
  {
    if |s| > 0 {
      forall i | 0 <= i < |s| - 1 ensures !MatchAt(s[1..], i) {
        assert !MatchAt(s, i + 1);
      }
      SpacedWithoutMatch(s[1..]);
      assert s == [s[0]] + s[1..];
    }
  }

  /** A stretch in which no match starts is copied unchanged, and the scan goes
      on after it. */
  lemma {:induction false} SpacedPlain(x: string, rest: string)
    requires forall i :: 0 <= i < |x| ==> !MatchAt(x + rest, i)
    ensures Spaced(x + rest) == x + Spaced(rest)
  {
    if |x| > 0 {
      var s := x + rest;
      assert !MatchAt(s, 0);
      assert s[1..] == x[1..] + rest;
      forall i | 0 <= i < |x| - 1 ensures !MatchAt(x[1..] + rest, i) {
        assert !MatchAt(s, i + 1);
        assert s[i + 1..] == (x[1..] + rest)[i..];
      }
      SpacedPlain(x[1..], rest);
      assert s[0] == x[0];
      assert x == [x[0]] + x[1..];
    } else {
      assert x + rest == rest;
    }
  }

  /** A match at the start gets its space and the scan resumes after it. */
  lemma SpacedGroup(a: char, b: char, c: char, rest: string)
    requires Closer(a) && Separator(b) && Opener(c)
    ensures Spaced([a, b, c] + rest) == [a, b, ' ', c] + Spaced(rest)
  {
    var s := [a, b, c] + rest;
    assert MatchAt(s, 0);
    assert s[3..] == rest;
  }

  /** Whether a match starts inside a stretch depends only on the stretch and the
      two characters after it. */
  lemma SpacedPlainLocal(x: string, rest: string)
    requires |rest| >= 2
    requires forall i :: 0 <= i < |x| ==> !MatchAt(x + rest[..2], i)
    ensures Spaced(x + rest) == x + Spaced(rest)
  {
    var y := x + rest[..2];
    var z := x + rest;
    assert |y| == |x| + 2;
    assert forall j :: 0 <= j < |x| + 2 ==> z[j] == y[j];
    forall i | 0 <= i < |x| ensures !MatchAt(z, i) {
      assert !MatchAt(y, i);
    }
    SpacedPlain(x, rest);
  }

  /** A key of letters opening an object: nothing in `{"key` starts a match. */
  lemma SpacedOpenKey(key: string, rest: string)
    requires |key| > 0
    requires forall i :: 0 <= i < |key| ==> !Closer(key[i]) && !Separator(key[i])
    ensures Spaced("{\"" + key + rest) == "{\"" + key + Spaced(rest)
  {
    var x := "{\"" + key;
    assert "{\"" + key + rest == x + rest;
    forall i | 0 <= i < |x| ensures !MatchAt(x + rest, i) {
      if i >= 2 {
        assert (x + rest)[i] == key[i - 2];
      } else if i == 1 {
        assert (x + rest)[2] == key[0];
      }
    }
    SpacedPlain(x, rest);
  }
}

=== FILE: config.dfy ===
/** The two levels of configuration of lib/sendgrid.rb and their setters.

    `ClassConfig` holds what the `ClassMethods` setters store in the mailer class's
    `default_sg_*` attributes; `MessageConfig` holds what the instance setters
    store in `@sg_*` variables while one mailer method runs. Ruby's `nil` for an
    attribute that was never set is `None`, or the empty list/hash where the code
    treats `nil` and empty alike. Each setter returns the updated record. */
module Config {
  import opened Wrappers
  import opened Hashes
  import opened Json
  import opened Options
  import opened Seqs

  /** A subscription-tracking or footer text hash: `{:replace => ...}` or
      `{:html => ..., :plain => ...}`. A key that is not given is `None`. */
  datatype Texts = Texts(replace: Option<string>, html: Option<string>, plain: Option<string>)

  datatype ClassConfig = ClassConfig(
    category: Option<Name>,
    options: seq<Feature>,
    subscriptionText: Option<Texts>,
    footerText: Option<Texts>,
    spamcheckScore: Option<int>,
    uniqueArgs: Hash<string, Json>)

  datatype MessageConfig = MessageConfig(
    category: Option<Name>,
    uniqueArgs: Hash<string, Json>,
    options: seq<Feature>,
    disabled: seq<Feature>,
    substitutions: Hash<string, seq<Json>>,
    subscriptionText: Option<Texts>,
    footerText: Option<Texts>,
    spamcheckScore: Option<int>,
    ganalytics: seq<(AnalyticsKey, Json)>,
    publicize: bool)

  /** A mailer class on which no `ClassMethods` setter was called. */
  const NoDefaults := ClassConfig(None, [], None, None, None, [])

  /** A mailer instance on which no instance setter was called: recipients are
      anonymised unless `sendgrid_publicize_recipients` is called. */
  const NoOverrides := MessageConfig(None, [], [], [], [], None, None, None, [], false)

  // ---- ClassMethods ----

  /** Class-level `sendgrid_category`: the last call wins. */
  function ClassCategory(c: ClassConfig, category: Name): (r: ClassConfig)
    ensures r.category == Some(category)
    ensures r.(category := c.category) == c
  {
    c.(category := Some(category))
  }

  /** Class-level `sendgrid_enable`: appends the recognised options to the
      defaults, in argument order and with duplicates, leaving earlier entries and
      every other setting alone. */
  function ClassEnable(c: ClassConfig, names: seq<Name>): (r: ClassConfig)
    ensures |c.options| <= |r.options| && r.options[..|c.options|] == c.options
    ensures forall f :: multiset(r.options)[f] == multiset(c.options)[f] + multiset(names)[Sym(FeatureName(f))]
    ensures r.(options := c.options) == c
  {
    var r := c.(options := c.options + ValidFeatures(names));
    assert r.options[..|c.options|] == c.options;
    assert forall f :: multiset(r.options)[f] == multiset(c.options)[f] + multiset(names)[Sym(FeatureName(f))] by {
      forall f { ValidFeaturesCount(names, f); }
    }
    r
  }

  /** Two class-level enables append what one enable of both argument lists
      would. */
  lemma ClassEnableTwice(c: ClassConfig, a: seq<Name>, b: seq<Name>)
    ensures ClassEnable(ClassEnable(c, a), b) == ClassEnable(c, a + b)
  {
    ValidFeaturesAppend(a, b);
    Associative(c.options, ValidFeatures(a), ValidFeatures(b));
  }

  /** Class-level `sendgrid_disable`: removes every occurrence of every named
      option from the defaults, keeping the order of the rest; unknown names and
      strings remove nothing. */
  function ClassDisable(c: ClassConfig, names: seq<Name>): (r: ClassConfig)
    ensures r.options == Without(c.options, names)
    ensures forall f :: multiset(r.options)[f] == if Sym(FeatureName(f)) in names then 0 else multiset(c.options)[f]
    ensures r.(options := c.options) == c
  {
    DeleteEachIsWithout(c.options, names);
    c.(options := DeleteEach(c.options, names))
  }

  /** Class-level `sendgrid_subscriptiontrack_text`. */
  function ClassSubscriptionText(c: ClassConfig, texts: Texts): (r: ClassConfig)
    ensures r.subscriptionText == Some(texts)
    ensures r.(subscriptionText := c.subscriptionText) == c
  {
    c.(subscriptionText := Some(texts))
  }

  /** Class-level `sendgrid_footer_text`. */
  function ClassFooterText(c: ClassConfig, texts: Texts): (r: ClassConfig)
    ensures r.footerText == Some(texts)
    ensures r.(footerText := c.footerText) == c
  {
    c.(footerText := Some(texts))
  }

  /** Class-level `sendgrid_spamcheck_maxscore`. */
  function ClassSpamcheckScore(c: ClassConfig, score: int): (r: ClassConfig)
    ensures r.spamcheckScore == Some(score)
    ensures r.(spamcheckScore := c.spamcheckScore) == c
  {
    c.(spamcheckScore := Some(score))
  }

  /** Class-level `sendgrid_unique_args`: replaces (does not merge) the stored hash. */
  function ClassUniqueArgs(c: ClassConfig, args: Hash<string, Json>): (r: ClassConfig)
    ensures r.uniqueArgs == args
    ensures r.(uniqueArgs := c.uniqueArgs) == c
  {
    c.(uniqueArgs := args)
  }

  // ---- instance setters ----

  /** Instance `sendgrid_category`. */
  function Category(m: MessageConfig, category: Name): (r: MessageConfig)
    ensures r.category == Some(category)
    ensures r.(category := m.category) == m
  {
    m.(category := Some(category))
  }

  /** Instance `sendgrid_unique_args`: replaces the instance hash; the merge with
      the class hash happens when the header is built. */
  function UniqueArgs(m: MessageConfig, args: Hash<string, Json>): (r: MessageConfig)
    ensures r.uniqueArgs == args
    ensures r.(uniqueArgs := m.uniqueArgs) == m
  {
    m.(uniqueArgs := args)
  }

  /** Instance `sendgrid_enable`: appends the recognised options, in argument
      order and with duplicates, to the instance additions. */
  function Enable(m: MessageConfig, names: seq<Name>): (r: MessageConfig)
    ensures |m.options| <= |r.options| && r.options[..|m.options|] == m.options
    ensures forall f :: multiset(r.options)[f] == multiset(m.options)[f] + multiset(names)[Sym(FeatureName(f))]
    ensures r.(options := m.options) == m
  {
    var r := m.(options := m.options + ValidFeatures(names));
    assert r.options[..|m.options|] == m.options;
    assert forall f :: multiset(r.options)[f] == multiset(m.options)[f] + multiset(names)[Sym(FeatureName(f))] by {
      forall f { ValidFeaturesCount(names, f); }
    }
    r
  }

  /** Instance `sendgrid_disable`: appends the recognised options to the disabled
      list. Like enable, it drops anything not in `VALID_OPTIONS`. */
  function Disable(m: MessageConfig, names: seq<Name>): (r: MessageConfig)
    ensures |m.disabled| <= |r.disabled| && r.disabled[..|m.disabled|] == m.disabled
    ensures forall f :: multiset(r.disabled)[f] == multiset(m.disabled)[f] + multiset(names)[Sym(FeatureName(f))]
    ensures r.(disabled := m.disabled) == m
  {
    var r := m.(disabled := m.disabled + ValidFeatures(names));
    assert r.disabled[..|m.disabled|] == m.disabled;
    assert forall f :: multiset(r.disabled)[f] == multiset(m.disabled)[f] + multiset(names)[Sym(FeatureName(f))] by {
      forall f { ValidFeaturesCount(names, f); }
    }
    r
  }

  /** Two instance enables (or disables) append what one call with both argument
      lists would. */
  lemma EnableTwice(m: MessageConfig, a: seq<Name>, b: seq<Name>)
    ensures Enable(Enable(m, a), b) == Enable(m, a + b)
    ensures Disable(Disable(m, a), b) == Disable(m, a + b)
  {
    ValidFeaturesAppend(a, b);
    Associative(m.options, ValidFeatures(a), ValidFeatures(b));
    Associative(m.disabled, ValidFeatures(a), ValidFeatures(b));
  }

  /** Instance `sendgrid_substitute`: `@sg_substitutions[placeholder] = subs`. A
      repeated placeholder keeps its position and takes the new list. */
  function Substitute(m: MessageConfig, placeholder: string, values: seq<Json>): (r: MessageConfig)
    ensures Lookup(r.substitutions, placeholder) == Some(values)
    ensures forall p :: p != placeholder ==> Lookup(r.substitutions, p) == Lookup(m.substitutions, p)
    ensures Keys(r.substitutions) == if placeholder in Keys(m.substitutions) then Keys(m.substitutions)
                                     else Keys(m.substitutions) + [placeholder]
    ensures r.(substitutions := m.substitutions) == m
  {
    m.(substitutions := Put(m.substitutions, placeholder, values))
  }

  /** A placeholder not set before goes after the ones that are. */
  lemma SubstituteNew(m: MessageConfig, placeholder: string, values: seq<Json>)
    requires placeholder !in Keys(m.substitutions)
    ensures Substitute(m, placeholder, values).substitutions == m.substitutions + [(placeholder, values)]
  {
    PutNew(m.substitutions, placeholder, values);
  }

  /** Instance `sendgrid_subscriptiontrack_text`. */
  function SubscriptionText(m: MessageConfig, texts: Texts): (r: MessageConfig)
    ensures r.subscriptionText == Some(texts)
    ensures r.(subscriptionText := m.subscriptionText) == m
  {
    m.(subscriptionText := Some(texts))
  }

  /** Instance `sendgrid_footer_text`. */
  function FooterText(m: MessageConfig, texts: Texts): (r: MessageConfig)
    ensures r.footerText == Some(texts)
    ensures r.(footerText := m.footerText) == m
  {
    m.(footerText := Some(texts))
  }

  /** Instance `sendgrid_spamcheck_maxscore`. */
  function SpamcheckScore(m: MessageConfig, score: int): (r: MessageConfig)
    ensures r.spamcheckScore == Some(score)
    ensures r.(spamcheckScore := m.spamcheckScore) == m
  {
    m.(spamcheckScore := Some(score))
  }

  /** Instance `sendgrid_ganalytics_options`: starts a fresh list, so the pairs of
      an earlier call are discarded, then keeps the recognised pairs in order. */
  function GanalyticsOptions(m: MessageConfig, pairs: seq<(Name, Json)>): (r: MessageConfig)
    ensures r.ganalytics == ValidAnalytics(pairs)
    ensures |r.ganalytics| <= |pairs|
    ensures forall p :: p in r.ganalytics ==>
              exists q :: q in pairs && q.0.Text() == AnalyticsName(p.0) && q.1 == p.1
    ensures r.(ganalytics := m.ganalytics) == m
  {
    ValidAnalyticsFrom(pairs);
    m.(ganalytics := ValidAnalytics(pairs))
  }

  /** A second `sendgrid_ganalytics_options` call replaces the first one's pairs. */
  lemma GanalyticsOptionsReplace(m: MessageConfig, a: seq<(Name, Json)>, b: seq<(Name, Json)>)
    ensures GanalyticsOptions(GanalyticsOptions(m, a), b) == GanalyticsOptions(m, b)
  {
  }

  /** `sendgrid_anonymize_recipients`. */
  function AnonymizeRecipients(m: MessageConfig): (r: MessageConfig)
    ensures !r.publicize
    ensures r.(publicize := m.publicize) == m
  {
    m.(publicize := false)
  }

  /** `sendgrid_publicize_recipients`. */
  function PublicizeRecipients(m: MessageConfig): (r: MessageConfig)
    ensures r.publicize
    ensures r.(publicize := m.publicize) == m
  {
    m.(publicize := true)
  }
}

=== FILE: effects.dfy ===
/** What each setter of lib/sendgrid.rb does to the header that is built
    afterwards: the setters only store values, and these lemmas follow a stored
    value through the builder steps to the part of the document it decides. */
module Effects {
  import opened Wrappers
  import opened Hashes
  import opened Json
  import opened Options
  import opened Config
  import opened Validation
  import opened Filters
  import opened Header

  /** An instance category other than the sentinel is emitted as given, whatever
      the class default and the subject. */
  lemma CategoryReachesHeader(c: ClassConfig, m: MessageConfig, category: Name, message: Message)
    requires category != Sym(UseSubjectLines)
    ensures Build(c, Category(m, category), message).category == Some(category.Text())
  {
  }

  /** The instance sentinel makes the subject the category, whatever the class
      default. */
  lemma SubjectLinesReachHeader(c: ClassConfig, m: MessageConfig, message: Message)
    ensures Build(c, Category(m, Sym(UseSubjectLines)), message).category == Some(message.subject)
  {
  }

  /** A class category, string or symbol, spelled `use_subject_lines` makes the
      subject the category of a mailer that sets none itself. */
  lemma ClassSubjectLinesReachHeader(c: ClassConfig, m: MessageConfig, category: Name, message: Message)
    requires m.category.None?
    requires category.Text() == UseSubjectLines
    ensures Build(ClassCategory(c, category), m, message).category == Some(message.subject)
  {
  }

  /** Publicising removes `to` from the header; anonymising puts every address
      of the message there. */
  lemma VisibilityReachesHeader(c: ClassConfig, m: MessageConfig, message: Message)
    ensures Build(c, PublicizeRecipients(m), message).to == None
    ensures Build(c, AnonymizeRecipients(m), message).to == Some(message.recipients)
  {
  }

  /** After `sendgrid_unique_args(args)` the header's unique arguments are the
      class ones overridden by `args`, and present exactly when either is
      non-empty. */
  lemma UniqueArgsReachHeader(c: ClassConfig, m: MessageConfig, args: Hash<string, Json>, message: Message)
    ensures var h := Build(c, UniqueArgs(m, args), message);
            && (h.uniqueArgs.Some? <==> |c.uniqueArgs| > 0 || |args| > 0)
            && (h.uniqueArgs.Some? ==>
                  forall k :: Lookup(h.uniqueArgs.value, k) ==
                                if k in Keys(args) then Lookup(args, k) else Lookup(c.uniqueArgs, k))
  {
  }

  /** Every option named in an instance disable, and recognised, ends up in the
      header as exactly `enable: 0`, even when it is enabled at either level. */
  lemma DisableReachesFilters(c: ClassConfig, m: MessageConfig, names: seq<Name>, f: Feature, message: Message)
    requires Sym(FeatureName(f)) in names
    ensures var h := Build(c, Disable(m, names), message);
            h.filters.Some? && Lookup(h.filters.value, f) == Some(Disabled)
  {
    var m' := Disable(m, names);
    assert multiset(names)[Sym(FeatureName(f))] > 0;
    assert multiset(m'.disabled)[f] > 0;
    assert f in m'.disabled;
  }

  /** Every option named in an instance enable, and recognised, ends up in the
      header with `enable: 1`, unless it is also disabled. */
  lemma EnableReachesFilters(c: ClassConfig, m: MessageConfig, names: seq<Name>, f: Feature, message: Message)
    requires Sym(FeatureName(f)) in names
    requires f !in m.disabled
    ensures var h := Build(c, Enable(m, names), message);
            && h.filters.Some?
            && Lookup(h.filters.value, f).Some?
            && Lookup(Lookup(h.filters.value, f).value, "enable") == Some(JInt(1))
  {
    var m' := Enable(m, names);
    assert multiset(names)[Sym(FeatureName(f))] > 0;
    assert multiset(m'.options)[f] > 0;
    assert f in m'.options;
  }

  /** A class-level disable takes an option out of the defaults: unless the
      instance enables it, it has no entry in the header. */
  lemma ClassDisableReachesFilters(c: ClassConfig, m: MessageConfig, names: seq<Name>, f: Feature, message: Message)
    requires Sym(FeatureName(f)) in names
    requires f !in m.options && f !in m.disabled
    ensures var h := Build(ClassDisable(c, names), m, message);
            h.filters.None? || Lookup(h.filters.value, f) == None
  {
    var c' := ClassDisable(c, names);
    assert multiset(c'.options)[f] == 0;
    assert f !in c'.options;
  }

  /** The settings an enabled, not disabled, option carries in the header. */
  lemma SettingsInHeader(c: ClassConfig, m: MessageConfig, f: Feature, message: Message)
    requires f in c.options || f in m.options
    requires f !in m.disabled
    ensures var h := Build(c, m, message);
            h.filters.Some? && Lookup(h.filters.value, f) == Some(EnabledSettings(f, c, m))
  {
  }

  /** An instance spam-check score decides the settings of an enabled
      `spamcheck`, whatever the class score: `maxscore` is that score. */
  lemma ScoreReachesFilters(c: ClassConfig, m: MessageConfig, score: int, message: Message)
    requires SpamCheck in c.options || SpamCheck in m.options
    requires SpamCheck !in m.disabled
    ensures var h := Build(c, SpamcheckScore(m, score), message);
            h.filters.Some? && Lookup(h.filters.value, SpamCheck) == Some(SpamCheckSettings(Some(score)))
  {
    var m' := SpamcheckScore(m, score);
    SettingsInHeader(c, m', SpamCheck, message);
    InstanceSettings(SpamCheck, c, m');
  }

  /** An instance footer text decides the settings of an enabled `footer`,
      whatever the class text. */
  lemma FooterReachesFilters(c: ClassConfig, m: MessageConfig, texts: Texts, message: Message)
    requires Footer in c.options || Footer in m.options
    requires Footer !in m.disabled
    ensures var h := Build(c, FooterText(m, texts), message);
            h.filters.Some? && Lookup(h.filters.value, Footer) == Some(FooterSettings(Some(texts)))
  {
    var m' := FooterText(m, texts);
    SettingsInHeader(c, m', Footer, message);
    InstanceSettings(Footer, c, m');
  }

  /** An instance subscription text decides the settings of an enabled
      `subscriptiontrack`, whatever the class text. */
  lemma SubscriptionTextReachesFilters(c: ClassConfig, m: MessageConfig, texts: Texts, message: Message)
    requires SubscriptionTrack in c.options || SubscriptionTrack in m.options
    requires SubscriptionTrack !in m.disabled
    ensures var h := Build(c, SubscriptionText(m, texts), message);
            && h.filters.Some?
            && Lookup(h.filters.value, SubscriptionTrack) == Some(SubscriptionTrackSettings(Some(texts)))
  {
    var m' := SubscriptionText(m, texts);
    SettingsInHeader(c, m', SubscriptionTrack, message);
    InstanceSettings(SubscriptionTrack, c, m');
  }

  /** The pairs of the last `sendgrid_ganalytics_options` call, as the
      registry filters them, decide the settings of an enabled `ganalytics`. */
  lemma GanalyticsReachesFilters(c: ClassConfig, m: MessageConfig, pairs: seq<(Name, Json)>, message: Message)
    requires GAnalytics in c.options || GAnalytics in m.options
    requires GAnalytics !in m.disabled
    ensures var h := Build(c, GanalyticsOptions(m, pairs), message);
            && h.filters.Some?
            && Lookup(h.filters.value, GAnalytics) == Some(GAnalyticsSettings(ValidAnalytics(pairs)))
  {
    SettingsInHeader(c, GanalyticsOptions(m, pairs), GAnalytics, message);
  }

  /** A substitution list whose length differs from the recipient count makes
      `mail` refuse the message, even when everything else is in order. */
  lemma SubstituteChecked(c: ClassConfig, m: MessageConfig, p: Params, placeholder: string, values: seq<Json>,
                          message: Message)
    requires p.to.ToList? && |values| != |p.to.addresses|
    ensures Mail(c, Substitute(m, placeholder, values), p, message).Failure?
  {
    var subs := Substitute(m, placeholder, values).substitutions;
    var i :| 0 <= i < |subs| && subs[i] == (placeholder, values);
    assert |subs[i].1| != |p.to.addresses|;
  }
}

=== FILE: filters.dfy ===
/** `filters_hash_from_options` (lib/sendgrid.rb): the `filters` part of the header.
    Each enabled option gets `{"settings": {"enable": 1, ...}}` with the settings
    of its feature; afterwards each disabled option is overwritten with
    `{"settings": {"enable": 0}}`. A filter's value is represented here by its
    settings hash; the `"settings"` wrapper is added when the header is printed. */
module Filters {
  import opened Wrappers
  import opened Hashes
  import opened Json
  import opened Options
  import opened Config

  type Settings = Hash<string, Json>

  const Enabled: Settings := [("enable", JInt(1))]
  const Disabled: Settings := [("enable", JInt(0))]

  /** A text hash entry as `to_json` prints it: a missing key is `null`. */
  function OrNull(s: Option<string>): Json
  {
    match s
    case Some(t) => JString(t)
    case None => JNull
  }

  /** `text/html` and `text/plain` of a text hash added to the enabled settings,
      null where the hash lacks them. */
  function HtmlAndPlain(t: Texts): (s: Settings)
    ensures Keys(s) == ["enable", "text/html", "text/plain"]
    ensures Lookup(s, "enable") == Some(JInt(1))
    ensures Lookup(s, "text/html") == Some(OrNull(t.html))
    ensures Lookup(s, "text/plain") == Some(OrNull(t.plain))
  {
    assert Keys(Enabled) == ["enable"];
    var h := Put(Enabled, "text/html", OrNull(t.html));
    assert Keys(h) == ["enable", "text/html"];
    Put(h, "text/plain", OrNull(t.plain))
  }

  /** The settings of `subscriptiontrack` for the chosen text hash: a `replace`
      entry when the hash has one, and otherwise both `text/html` and
      `text/plain` (null where the hash lacks them), never both kinds. */
  function SubscriptionTrackSettings(text: Option<Texts>): (s: Settings)
    ensures Lookup(s, "enable") == Some(JInt(1))
    ensures "replace" in Keys(s) ==> "text/html" !in Keys(s) && "text/plain" !in Keys(s)
    ensures text.None? ==> Keys(s) == ["enable"]
    ensures text.Some? && text.value.replace.Some? ==> Keys(s) == ["enable", "replace"]
    ensures text.Some? && text.value.replace.None? ==> Keys(s) == ["enable", "text/html", "text/plain"]
    ensures text.Some? && text.value.replace.Some? ==>
              Lookup(s, "replace") == Some(JString(text.value.replace.value))
    ensures text.Some? && text.value.replace.None? ==>
              && "replace" !in Keys(s)
              && Lookup(s, "text/html") == Some(OrNull(text.value.html))
              && Lookup(s, "text/plain") == Some(OrNull(text.value.plain))
  {
    assert Keys(Enabled) == ["enable"];
    match text
    case None => Enabled
    case Some(t) =>
      if t.replace.Some? then
        var s := Put(Enabled, "replace", JString(t.replace.value));
        assert Keys(s) == ["enable", "replace"];
        s
      else HtmlAndPlain(t)
  }

  /** The settings of `footer`: `text/html` and `text/plain` from the chosen text
      hash (null where it lacks them); just `enable` when no text is set. */
  function FooterSettings(text: Option<Texts>): (s: Settings)
    ensures Lookup(s, "enable") == Some(JInt(1))
    ensures text.None? ==> Keys(s) == ["enable"]
    ensures text.Some? ==> Keys(s) == ["enable", "text/html", "text/plain"]
    ensures text.Some? ==>
              && Lookup(s, "text/html") == Some(OrNull(text.value.html))
              && Lookup(s, "text/plain") == Some(OrNull(text.value.plain))
              && "replace" !in Keys(s)
  {
    assert Keys(Enabled) == ["enable"];
    match text
    case None => Enabled
    case Some(t) => HtmlAndPlain(t)
  }

  /** The settings of `spamcheck`: `maxscore` exactly when a score is set. */
  function SpamCheckSettings(score: Option<int>): (s: Settings)
    ensures Lookup(s, "enable") == Some(JInt(1))
    ensures score.None? ==> Keys(s) == ["enable"]
    ensures score.Some? ==> Keys(s) == ["enable", "maxscore"]
    ensures score.Some? ==> Lookup(s, "maxscore") == Some(JInt(score.value))
  {
    assert Keys(Enabled) == ["enable"];
    match score
    case None => Enabled
    case Some(v) => Put(Enabled, "maxscore", JInt(v))
  }

  /** The retained Google-Analytics pairs with their keys spelled as strings
      (`key.to_s`). */
  function Named(pairs: seq<(AnalyticsKey, Json)>): (r: seq<(string, Json)>)
    ensures |r| == |pairs|
    ensures forall i :: 0 <= i < |pairs| ==> r[i] == (AnalyticsName(pairs[i].0), pairs[i].1)
  {
    seq(|pairs|, i requires 0 <= i < |pairs| => (AnalyticsName(pairs[i].0), pairs[i].1))
  }

  lemma AnalyticsNameIsNotEnable(k: AnalyticsKey)
    ensures AnalyticsName(k) != "enable"
  {
  }

  /** The settings of `ganalytics`: `settings[key.to_s] = value` for every retained
      pair in order, so each key appears once and carries the value of the
      pair that came last; `enable` is never overwritten. */
  function GAnalyticsSettings(pairs: seq<(AnalyticsKey, Json)>): (s: Settings)
    ensures Lookup(s, "enable") == Some(JInt(1))
    ensures forall k :: Lookup(s, AnalyticsName(k)) == Lookup(Named(pairs), AnalyticsName(k))
    ensures Keys(s) == AddNew(["enable"], Keys(Named(pairs)))
  {
    var named := Named(pairs);
    NamedNotEnable(pairs);
    PutAll(Enabled, named)
  }

  /** No retained pair can overwrite `enable`. */
  lemma NamedNotEnable(pairs: seq<(AnalyticsKey, Json)>)
    ensures Keys(Enabled) == ["enable"]
    ensures "enable" !in Keys(Named(pairs))
    ensures forall k :: Lookup(Enabled, AnalyticsName(k)) == None
  {
    assert Keys(Enabled) == ["enable"];
    forall i | 0 <= i < |pairs| ensures Keys(Named(pairs))[i] != "enable" {
      AnalyticsNameIsNotEnable(pairs[i].0);
    }
    forall k ensures Lookup(Enabled, AnalyticsName(k)) == None {
      AnalyticsNameIsNotEnable(k);
    }
  }

  /** Among several pairs with the same key, the value of the last one is the one
      `ganalytics` carries. */
  lemma {:induction false} GAnalyticsLastWins(pairs: seq<(AnalyticsKey, Json)>, i: int)
    requires 0 <= i < |pairs|
    requires forall j :: i < j < |pairs| ==> pairs[j].0 != pairs[i].0
    ensures Lookup(GAnalyticsSettings(pairs), AnalyticsName(pairs[i].0)) == Some(pairs[i].1)
  {
    var named := Named(pairs);
    forall j | i < j < |named|
      ensures named[j].0 != named[i].0
    {
      AnalyticsNameInjective(pairs[j].0, pairs[i].0);
    }
    LookupIsLastOccurrence(named, i);
  }

  /** The settings an enabled option gets, resolving each text and score with the
      instance value first and the class default second. The four options without
      settings of their own, and an option whose text or score neither level set,
      get `enable: 1` and nothing else. */
  function EnabledSettings(f: Feature, c: ClassConfig, m: MessageConfig): (s: Settings)
    ensures Lookup(s, "enable") == Some(JInt(1))
    ensures f.OpenTrack? || f.ClickTrack? || f.Gravatar? || f.BypassListManagement? ==> s == Enabled
    ensures f.SubscriptionTrack? && m.subscriptionText.None? && c.subscriptionText.None? ==> s == Enabled
    ensures f.Footer? && m.footerText.None? && c.footerText.None? ==> s == Enabled
    ensures f.SpamCheck? && m.spamcheckScore.None? && c.spamcheckScore.None? ==> s == Enabled
  {
    match f
    case SubscriptionTrack => SubscriptionTrackSettings(m.subscriptionText.OrElse(c.subscriptionText))
    case Footer => FooterSettings(m.footerText.OrElse(c.footerText))
    case SpamCheck => SpamCheckSettings(m.spamcheckScore.OrElse(c.spamcheckScore))
    case GAnalytics => GAnalyticsSettings(m.ganalytics)
    case _ => Enabled
  }

  /** An instance text or score replaces the class default wholesale: with an
      instance value set, the class default has no influence on the settings. */
  lemma InstanceSettingsWin(f: Feature, c1: ClassConfig, c2: ClassConfig, m: MessageConfig)
    requires f == SubscriptionTrack ==> m.subscriptionText.Some?
    requires f == Footer ==> m.footerText.Some?
    requires f == SpamCheck ==> m.spamcheckScore.Some?
    ensures EnabledSettings(f, c1, m) == EnabledSettings(f, c2, m)
  {
  }

  /** With an instance text or score set, it is that value the settings are
      made of. */
  lemma InstanceSettings(f: Feature, c: ClassConfig, m: MessageConfig)
    ensures f == SubscriptionTrack && m.subscriptionText.Some? ==>
              EnabledSettings(f, c, m) == SubscriptionTrackSettings(m.subscriptionText)
    ensures f == Footer && m.footerText.Some? ==> EnabledSettings(f, c, m) == FooterSettings(m.footerText)
    ensures f == SpamCheck && m.spamcheckScore.Some? ==> EnabledSettings(f, c, m) == SpamCheckSettings(m.spamcheckScore)
  {
  }

  /** With no instance value, the class default decides: it acts exactly as if
      it had been set on the instance of a class without defaults. */
  lemma ClassSettingsApply(f: Feature, c: ClassConfig, m: MessageConfig)
    requires f == SubscriptionTrack ==> m.subscriptionText.None?
    requires f == Footer ==> m.footerText.None?
    requires f == SpamCheck ==> m.spamcheckScore.None?
    ensures EnabledSettings(f, c, m)
            == EnabledSettings(f, NoDefaults, m.(subscriptionText := c.subscriptionText, footerText := c.footerText,
                                            spamcheckScore := c.spamcheckScore))
  {
  }

  /** Each key of `keys` paired with its value under `value`. */
  function Tagged(keys: seq<Feature>, value: Feature -> Settings): (r: seq<(Feature, Settings)>)
    ensures Keys(r) == keys
    ensures forall f :: Lookup(r, f) == if f in keys then Some(value(f)) else None
  {
    var r := seq(|keys|, i requires 0 <= i < |keys| => (keys[i], value(keys[i])));
    assert Keys(r) == keys;
    assert forall f :: f in keys ==> Lookup(r, f) == Some(value(f)) by {
      forall f | f in keys ensures Lookup(r, f) == Some(value(f)) {
        assert (f, Lookup(r, f).value) in r;
      }
    }
    r
  }

  /** `filters_hash_from_options(enabled, disabled)`: every option named by either
      list gets one entry, in the order it was first named; a disabled option is
      `enable: 0` even when it is also enabled; the others carry their enabled
      settings. */
  function FiltersHash(enabled: seq<Feature>, disabled: seq<Feature>, c: ClassConfig, m: MessageConfig)
    : (r: Hash<Feature, Settings>)
    ensures forall f :: Lookup(r, f) ==
              if f in disabled then Some(Disabled)
              else if f in enabled then Some(EnabledSettings(f, c, m))
              else None
    ensures Keys(r) == AddNew([], enabled + disabled)
    ensures |r| == 0 <==> |enabled| == 0 && |disabled| == 0
  {
    var r := PutAll(PutAll([], Tagged(enabled, f => EnabledSettings(f, c, m))), Tagged(disabled, f => Disabled));
    TaggedKeys(enabled, disabled, Keys(r));
    r
  }

  /** The keys of both lists, first-mention order, empty only when both are. */
  lemma TaggedKeys(enabled: seq<Feature>, disabled: seq<Feature>, keys: seq<Feature>)
    requires keys == AddNew(AddNew([], enabled), disabled)
    ensures keys == AddNew([], enabled + disabled)
    ensures |keys| == 0 <==> |enabled| == 0 && |disabled| == 0
  {
    AddNewAppend([], enabled, disabled);
    AddNewProperties([], enabled + disabled);
    assert |enabled + disabled| > 0 ==> (enabled + disabled)[0] in keys;
  }
}

=== FILE: hashes.dfy ===
/** Ruby's `Hash` as the header builder uses it: an association list whose keys are
    unique and kept in insertion order (the order matters because it is the order
    the JSON text lists them in). `h[k] = v` replaces the value of an existing key
    in place and appends a new key at the end; `a.merge(b)` is `a[k] = v` for every
    pair of `b` in order. */
module Hashes {
  import opened Wrappers

  /** The keys of an association list, in order. */
  function Keys<K, V>(m: seq<(K, V)>): (ks: seq<K>)
    ensures |ks| == |m|
    ensures forall i :: 0 <= i < |m| ==> ks[i] == m[i].0
  {
    seq(|m|, i requires 0 <= i < |m| => m[i].0)
  }

  lemma KeysAppend<K, V>(a: seq<(K, V)>, b: seq<(K, V)>)
    ensures Keys(a + b) == Keys(a) + Keys(b)
  {
  }

  ghost predicate NoDuplicates<T>(s: seq<T>)
  {
    forall i, j :: 0 <= i < j < |s| ==> s[i] != s[j]
  }

  /** A Ruby hash: no key twice. */
  type Hash<K, V> = m: seq<(K, V)> | NoDuplicates(Keys(m)) witness []

  /** The value stored under `k`, taken from its LAST occurrence. On a `Hash` there
      is only one occurrence; on an arbitrary pair list this is the value that a
      sequence of assignments `h[k] = v` would leave behind. */
  function Lookup<K(==), V>(m: seq<(K, V)>, k: K): (r: Option<V>)
    ensures r.Some? <==> k in Keys(m)
    ensures r.Some? ==> (k, r.value) in m
  {
    if |m| == 0 then None
    else if m[|m| - 1].0 == k then Some(m[|m| - 1].1)
    else
      var r := Lookup(m[..|m| - 1], k);
      assert Keys(m) == Keys(m[..|m| - 1]) + [m[|m| - 1].0];
      r
  }

  /** The value of the last pair with key `k` is what `Lookup` returns. */
  lemma {:induction false} LookupIsLastOccurrence<K, V>(m: seq<(K, V)>, i: int)
    requires 0 <= i < |m|
    requires forall j :: i < j < |m| ==> m[j].0 != m[i].0
    ensures Lookup(m, m[i].0) == Some(m[i].1)
  {
    if i < |m| - 1 {
      LookupIsLastOccurrence(m[..|m| - 1], i);
    }
  }

  /** On a hash, every stored pair is found by its key. */
  lemma LookupInHash<K, V>(m: Hash<K, V>, i: int)
    requires 0 <= i < |m|
    ensures Lookup(m, m[i].0) == Some(m[i].1)
  {
    forall j | i < j < |m|
      ensures m[j].0 != m[i].0
    {
      assert Keys(m)[i] == m[i].0 && Keys(m)[j] == m[j].0;
    }
    LookupIsLastOccurrence(m, i);
  }

  /** A hash is determined by its key order and what each key looks up. */
  lemma HashExtensional<K, V>(a: Hash<K, V>, b: Hash<K, V>)
    requires Keys(a) == Keys(b)
    requires forall i :: 0 <= i < |a| ==> Lookup(a, a[i].0) == Lookup(b, a[i].0)
    ensures a == b
  {
    forall i | 0 <= i < |a| ensures a[i] == b[i] {
      LookupInHash(a, i);
      LookupInHash(b, i);
      assert Keys(a)[i] == Keys(b)[i];
    }
  }

  /** A pair list made from a hash position by position, each key passed through
      an injective `key` and each value through `value`, finds under `key(k)` what
      the hash finds under `k`, transformed. */
  lemma LookupRenamed<K, V, K2, V2>(m: Hash<K, V>, r: seq<(K2, V2)>, key: K -> K2, value: V -> V2, k: K)
    requires |r| == |m|
    requires forall i :: 0 <= i < |m| ==> r[i] == (key(m[i].0), value(m[i].1))
    requires forall a, b :: key(a) == key(b) ==> a == b
    ensures Lookup(r, key(k)) == if k in Keys(m) then Some(value(Lookup(m, k).value)) else None
  {
    if k in Keys(m) {
      var i :| 0 <= i < |m| && Keys(m)[i] == k;
      LookupInHash(m, i);
      forall j | i < j < |r|
        ensures r[j].0 != r[i].0
      {
        assert Keys(m)[i] == m[i].0 && Keys(m)[j] == m[j].0;
      }
      LookupIsLastOccurrence(r, i);
    } else {
      forall i | 0 <= i < |r|
        ensures Keys(r)[i] != key(k)
      {
        assert Keys(m)[i] == m[i].0;
      }
    }
  }

  /** Two lists with the same keys in the same positions and the same values under
      every key except `k` agree on every lookup except `k`. */
  lemma {:induction false} LookupSameExcept<K, V>(a: seq<(K, V)>, b: seq<(K, V)>, k: K, k': K)
    requires |a| == |b|
    requires forall i :: 0 <= i < |a| ==> a[i].0 == b[i].0
    requires forall i :: 0 <= i < |a| && a[i].0 != k ==> a[i].1 == b[i].1
    requires k' != k
    ensures Lookup(a, k') == Lookup(b, k')
  {
    if |a| > 0 {
      LookupSameExcept(a[..|a| - 1], b[..|b| - 1], k, k');
    }
  }

  /** `h[k] = v`. */
  function Put<K(==,!new), V>(m: Hash<K, V>, k: K, v: V): (r: Hash<K, V>)
    ensures Keys(r) == if k in Keys(m) then Keys(m) else Keys(m) + [k]
    ensures Lookup(r, k) == Some(v)
    ensures forall k' :: k' != k ==> Lookup(r, k') == Lookup(m, k')
  {
    if k in Keys(m) then
      var r := seq(|m|, i requires 0 <= i < |m| => if m[i].0 == k then (k, v) else m[i]);
      assert Keys(r) == Keys(m);
      var i :| 0 <= i < |m| && Keys(m)[i] == k;
      LookupInHash(r, i);
      forall k' | k' != k
        ensures Lookup(r, k') == Lookup(m, k')
      {
        LookupSameExcept(r, m, k, k');
      }
      r
    else
      var r := m + [(k, v)];
      assert Keys(r) == Keys(m) + [k];
      assert r[..|r| - 1] == m;
      r
  }

  /** A new key goes at the end. */
  lemma PutNew<K(!new), V>(m: Hash<K, V>, k: K, v: V)
    requires k !in Keys(m)
    ensures Put(m, k, v) == m + [(k, v)]
  {
  }

  /** `acc` followed by the elements of `s` not seen before, in first-seen order: the
      key order a hash ends with after assigning the keys of `s` one by one. */
  function AddNew<T(==)>(acc: seq<T>, s: seq<T>): (r: seq<T>)
  {
    if |s| == 0 then acc
    else
      var a := AddNew(acc, s[..|s| - 1]);
      if s[|s| - 1] in a then a else a + [s[|s| - 1]]
  }

  /** `AddNew` keeps `acc` as a prefix, holds exactly the elements of both, and
      introduces no duplicate. */
  lemma {:induction false} AddNewProperties<T>(acc: seq<T>, s: seq<T>)
    ensures |acc| <= |AddNew(acc, s)| && AddNew(acc, s)[..|acc|] == acc
    ensures forall x :: x in AddNew(acc, s) <==> x in acc || x in s
    ensures NoDuplicates(acc) ==> NoDuplicates(AddNew(acc, s))
  {
    if |s| > 0 {
      var p := s[..|s| - 1];
      AddNewProperties(acc, p);
      assert s == p + [s[|s| - 1]];
    }
  }

  /** Adding the elements of `a + b` is adding those of `a`, then those of `b`. */
  lemma {:induction false} AddNewAppend<T>(acc: seq<T>, a: seq<T>, b: seq<T>)
    ensures AddNew(acc, a + b) == AddNew(AddNew(acc, a), b)
  {
    if |b| == 0 {
      assert a + b == a;
    } else {
      var b' := b[..|b| - 1];
      AddNewAppend(acc, a, b');
      assert (a + b)[..|a + b| - 1] == a + b';
      assert (a + b)[|a + b| - 1] == b[|b| - 1];
    }
  }

  /** Assigning every pair of `ps`, in order, into `m`: Ruby's `m.merge(ps)` and the
      repeated `settings[key] = value` loops of the builder. */
  function PutAll<K(==,!new), V>(m: Hash<K, V>, ps: seq<(K, V)>): (r: Hash<K, V>)
    ensures forall k :: Lookup(r, k) == if k in Keys(ps) then Lookup(ps, k) else Lookup(m, k)
    ensures Keys(r) == AddNew(Keys(m), Keys(ps))
  {
    if |ps| == 0 then m
    else
      var p := ps[..|ps| - 1];
      assert Keys(ps) == Keys(p) + [ps[|ps| - 1].0];
      Put(PutAll(m, p), ps[|ps| - 1].0, ps[|ps| - 1].1)
  }

  /** Ruby's `a.merge(b)` on two hashes: the keys of `a` in their order, then the
      keys only `b` has, in `b`'s order. */
  function Merge<K(==,!new), V>(a: Hash<K, V>, b: Hash<K, V>): (r: Hash<K, V>)
    ensures forall k :: Lookup(r, k) == if k in Keys(b) then Lookup(b, k) else Lookup(a, k)
    ensures |a| <= |r| && Keys(r)[..|a|] == Keys(a)
    ensures Keys(r) == AddNew(Keys(a), Keys(b))
    ensures forall k :: k in Keys(r) <==> k in Keys(a) || k in Keys(b)
    ensures |r| == 0 <==> |a| == 0 && |b| == 0
  {
    var r := PutAll(a, b);
    AddNewProperties(Keys(a), Keys(b));
    assert |r| == |Keys(r)|;
    r
  }
}

=== FILE: header.dfy ===
/** The header builder of lib/sendgrid.rb: `prepare_recipients`, the four
    `build_*_headers` steps, `headers_as_json_for_sendgrid` and the checks of
    `mail` in front of them. */
module Header {
  import opened Wrappers
  import opened Hashes
  import opened Json
  import opened Options
  import opened Config
  import opened Validation
  import opened Filters
  import opened Cleanup

  /** What the header reads from the message the mail library built:
      `message.to.to_a` (bare addresses) and `message.subject`. */
  datatype Message = Message(recipients: seq<string>, subject: string)

  /** The category sentinel `:use_subject_lines`. */
  const UseSubjectLines: string := "use_subject_lines"

  /** The header document before printing; `None` is a key left out. */
  datatype SmtpApi = SmtpApi(
    to: Option<seq<string>>,
    uniqueArgs: Option<Hash<string, Json>>,
    category: Option<string>,
    sub: Option<Hash<string, seq<Json>>>,
    filters: Option<Hash<Feature, Settings>>)

  /** `prepare_recipients`: the addresses go into the header (so the provider
      hides them) unless `sendgrid_publicize_recipients` was the last visibility
      call. */
  function Recipients(m: MessageConfig, message: Message): (r: Option<seq<string>>)
    ensures r.Some? <==> !m.publicize
    ensures r.Some? ==> r.value == message.recipients
  {
    if m.publicize then None else Some(message.recipients)
  }

  /** `build_unique_args_headers`: the class hash merged with the instance hash,
      instance values winning, class keys first and then the instance's new keys in
      the instance's order; left out when empty. */
  function UniqueArgsHeader(c: ClassConfig, m: MessageConfig): (r: Option<Hash<string, Json>>)
    ensures r.Some? <==> |c.uniqueArgs| > 0 || |m.uniqueArgs| > 0
    ensures r.Some? ==>
              forall k :: Lookup(r.value, k) ==
                            if k in Keys(m.uniqueArgs) then Lookup(m.uniqueArgs, k) else Lookup(c.uniqueArgs, k)
    ensures r.Some? ==> |c.uniqueArgs| <= |r.value| && Keys(r.value)[..|c.uniqueArgs|] == Keys(c.uniqueArgs)
    ensures r.Some? ==> Keys(r.value) == AddNew(Keys(c.uniqueArgs), Keys(m.uniqueArgs))
  {
    var merged := Merge(c.uniqueArgs, m.uniqueArgs);
    if |merged| == 0 then None else Some(merged)
  }

  /** `build_category_headers`. The category is absent only when neither level
      set one, and is otherwise the subject or the text of the value in effect. */
  function CategoryHeader(c: ClassConfig, m: MessageConfig, subject: string): (r: Option<string>)
    ensures r.None? <==> m.category.None? && c.category.None?
    ensures r.Some? ==>
              || r.value == subject
              || (m.category.Some? && r.value == m.category.value.Text())
              || (m.category.None? && r.value == c.category.value.Text())
  {
    if m.category.Some? && m.category.value == Sym(UseSubjectLines) then Some(subject)
    else if m.category.Some? then Some(m.category.value.Text())
    else if c.category.Some? && c.category.value.Text() == UseSubjectLines then Some(subject)
    else if c.category.Some? then Some(c.category.value.Text())
    else None
  }

  /** An instance category takes precedence over any class default, the sentinel
      included: with one set, the class default has no influence. */
  lemma CategoryInstanceWins(c1: ClassConfig, c2: ClassConfig, m: MessageConfig, subject: string)
    requires m.category.Some?
    ensures CategoryHeader(c1, m, subject) == CategoryHeader(c2, m, subject)
  {
  }

  /** The subject is used exactly when the value in effect is the sentinel: at
      instance level only the symbol `:use_subject_lines` counts, at class level
      the string `"use_subject_lines"` counts too (`to_sym`). Otherwise the
      category does not depend on the subject. */
  lemma CategorySentinel(c: ClassConfig, m: MessageConfig, s1: string, s2: string)
    ensures m.category == Some(Sym(UseSubjectLines)) ==> CategoryHeader(c, m, s1) == Some(s1)
    ensures m.category.None? && c.category.Some? && c.category.value.Text() == UseSubjectLines ==>
              CategoryHeader(c, m, s1) == Some(s1)
    ensures m.category.Some? && m.category.value != Sym(UseSubjectLines) ==>
              CategoryHeader(c, m, s1) == CategoryHeader(c, m, s2) == Some(m.category.value.Text())
    ensures m.category.None? && c.category.Some? && c.category.value.Text() != UseSubjectLines ==>
              CategoryHeader(c, m, s1) == CategoryHeader(c, m, s2) == Some(c.category.value.Text())
  {
  }

  /** `build_substitutions_headers`: the substitution hash exactly as set, `null`
      entries and all; left out when empty. */
  function SubstitutionsHeader(m: MessageConfig): (r: Option<Hash<string, seq<Json>>>)
    ensures r.Some? <==> |m.substitutions| > 0
    ensures r.Some? ==> r.value == m.substitutions
  {
    if |m.substitutions| > 0 then Some(m.substitutions) else None
  }

  /** The enabled list of `build_options_headers`: with instance additions, the
      class defaults followed by the additions; without, the defaults alone. */
  function EnabledOptions(c: ClassConfig, m: MessageConfig): (r: seq<Feature>)
    ensures r == c.options + m.options
    ensures forall f :: f in r <==> f in c.options || f in m.options
  {
    if |m.options| > 0 then c.options + m.options
    else
      assert c.options + m.options == c.options;
      c.options
  }

  /** `build_options_headers`: present exactly when some option is enabled at
      either level or disabled at instance level; one entry per option named,
      in first-mention order, disabled ones `enable: 0`. */
  function FiltersHeader(c: ClassConfig, m: MessageConfig): (r: Option<Hash<Feature, Settings>>)
    ensures r.Some? <==> |c.options| > 0 || |m.options| > 0 || |m.disabled| > 0
    ensures r.Some? ==>
              forall f :: Lookup(r.value, f) ==
                            if f in m.disabled then Some(Disabled)
                            else if f in c.options || f in m.options then Some(EnabledSettings(f, c, m))
                            else None
    ensures r.Some? ==> Keys(r.value) == AddNew([], c.options + m.options + m.disabled)
  {
    var enabled := EnabledOptions(c, m);
    if |enabled| > 0 || |m.disabled| > 0 then
      var filters := FiltersHash(enabled, m.disabled, c, m);
      if |filters| > 0 then Some(filters) else None
    else None
  }

  /** The header document, its parts built in the order of
      `headers_as_json_for_sendgrid`. */
  function Build(c: ClassConfig, m: MessageConfig, message: Message): (h: SmtpApi)
    ensures h.to.Some? <==> !m.publicize
    ensures h.uniqueArgs.Some? <==> |c.uniqueArgs| > 0 || |m.uniqueArgs| > 0
    ensures h.category.None? <==> c.category.None? && m.category.None?
    ensures h.sub.Some? <==> |m.substitutions| > 0
    ensures h.filters.Some? <==> |c.options| > 0 || |m.options| > 0 || |m.disabled| > 0
  {
    SmtpApi(
      Recipients(m, message),
      UniqueArgsHeader(c, m),
      CategoryHeader(c, m, message.subject),
      SubstitutionsHeader(m),
      FiltersHeader(c, m))
  }

  // ---- JSON form ----

  /** The top-level keys of the document, declared in the order they are
      inserted into the header hash. */
  datatype Part = ToPart | UniqueArgsPart | CategoryPart | SubPart | FiltersPart

  function PartName(p: Part): string
  {
    match p
    case ToPart => "to"
    case UniqueArgsPart => "unique_args"
    case CategoryPart => "category"
    case SubPart => "sub"
    case FiltersPart => "filters"
  }

  function Rank(p: Part): nat
  {
    match p
    case ToPart => 0
    case UniqueArgsPart => 1
    case CategoryPart => 2
    case SubPart => 3
    case FiltersPart => 4
  }

  /** A key/value member when the value is set, nothing otherwise. */
  function Field(p: Part, v: Option<Json>): (r: seq<(Part, Json)>)
    ensures Keys(r) == if v.Some? then [p] else []
  {
    match v
    case Some(j) => [(p, j)]
    case None => []
  }

  /** The parts appear in strictly increasing rank. */
  ghost predicate Ranked(ps: seq<Part>)
  {
    forall i, j :: 0 <= i < j < |ps| ==> Rank(ps[i]) < Rank(ps[j])
  }

  /** The members of the document in the fixed order `to`, `unique_args`,
      `category`, `sub`, `filters`, each one there when its value is set. */
  function Members(to: Option<Json>, args: Option<Json>, category: Option<Json>, sub: Option<Json>,
                   filters: Option<Json>): seq<(Part, Json)>
  {
    Field(ToPart, to) + (Field(UniqueArgsPart, args) + (Field(CategoryPart, category)
      + (Field(SubPart, sub) + Field(FiltersPart, filters))))
  }

  /** A part put in front of parts of higher rank keeps the order, and the
      result has nothing of lower rank. */
  lemma RankedBefore(p: Part, v: Option<Json>, rest: seq<Part>)
    requires Ranked(rest)
    requires forall q :: q in rest ==> Rank(p) < Rank(q)
    ensures Ranked(Keys(Field(p, v)) + rest)
    ensures forall q :: q in Keys(Field(p, v)) + rest ==> Rank(p) <= Rank(q)
  {
  }

  /** The keys of the members, one part per set value. */
  lemma MembersKeys(to: Option<Json>, args: Option<Json>, category: Option<Json>, sub: Option<Json>,
                    filters: Option<Json>)
    ensures Keys(Members(to, args, category, sub, filters))
            == Keys(Field(ToPart, to)) + (Keys(Field(UniqueArgsPart, args)) + (Keys(Field(CategoryPart, category))
                 + (Keys(Field(SubPart, sub)) + Keys(Field(FiltersPart, filters)))))
  {
    var m4 := Field(SubPart, sub) + Field(FiltersPart, filters);
    KeysAppend(Field(SubPart, sub), Field(FiltersPart, filters));
    var m3 := Field(CategoryPart, category) + m4;
    KeysAppend(Field(CategoryPart, category), m4);
    var m2 := Field(UniqueArgsPart, args) + m3;
    KeysAppend(Field(UniqueArgsPart, args), m3);
    KeysAppend(Field(ToPart, to), m2);
  }

  /** The members come in strictly increasing rank, each present exactly when
      its value is. */
  lemma MembersOrdered(to: Option<Json>, args: Option<Json>, category: Option<Json>, sub: Option<Json>,
                       filters: Option<Json>)
    ensures Ranked(Keys(Members(to, args, category, sub, filters)))
    ensures ToPart in Keys(Members(to, args, category, sub, filters)) <==> to.Some?
    ensures UniqueArgsPart in Keys(Members(to, args, category, sub, filters)) <==> args.Some?
    ensures CategoryPart in Keys(Members(to, args, category, sub, filters)) <==> category.Some?
    ensures SubPart in Keys(Members(to, args, category, sub, filters)) <==> sub.Some?
    ensures FiltersPart in Keys(Members(to, args, category, sub, filters)) <==> filters.Some?
  {
    MembersKeys(to, args, category, sub, filters);
    KeysRanked(to, args, category, sub, filters);
    KeysPresent(to, args, category, sub, filters);
  }

  lemma KeysRanked(to: Option<Json>, args: Option<Json>, category: Option<Json>, sub: Option<Json>,
                   filters: Option<Json>)
    ensures Ranked(Keys(Field(ToPart, to)) + (Keys(Field(UniqueArgsPart, args)) + (Keys(Field(CategoryPart, category))
                 + (Keys(Field(SubPart, sub)) + Keys(Field(FiltersPart, filters))))))
  {
    var k5 := Keys(Field(FiltersPart, filters));
    var k4 := Keys(Field(SubPart, sub)) + k5;
    RankedBefore(SubPart, sub, k5);
    var k3 := Keys(Field(CategoryPart, category)) + k4;
    RankedBefore(CategoryPart, category, k4);
    var k2 := Keys(Field(UniqueArgsPart, args)) + k3;
    RankedBefore(UniqueArgsPart, args, k3);
    RankedBefore(ToPart, to, k2);
  }

  lemma KeysPresent(to: Option<Json>, args: Option<Json>, category: Option<Json>, sub: Option<Json>,
                    filters: Option<Json>)
    ensures var ks := Keys(Field(ToPart, to)) + (Keys(Field(UniqueArgsPart, args)) + (Keys(Field(CategoryPart, category))
                       + (Keys(Field(SubPart, sub)) + Keys(Field(FiltersPart, filters)))));
            && (ToPart in ks <==> to.Some?)
            && (UniqueArgsPart in ks <==> args.Some?)
            && (CategoryPart in ks <==> category.Some?)
            && (SubPart in ks <==> sub.Some?)
            && (FiltersPart in ks <==> filters.Some?)
  {
    var k5 := Keys(Field(FiltersPart, filters));
    var k4 := Keys(Field(SubPart, sub)) + k5;
    var k3 := Keys(Field(CategoryPart, category)) + k4;
    var k2 := Keys(Field(UniqueArgsPart, args)) + k3;
    forall q
      ensures q in Keys(Field(ToPart, to)) + k2 <==>
                || (q == ToPart && to.Some?) || (q == UniqueArgsPart && args.Some?)
                || (q == CategoryPart && category.Some?) || (q == SubPart && sub.Some?)
                || (q == FiltersPart && filters.Some?)
    {
      InBefore(q, SubPart, sub, k5);
      InBefore(q, CategoryPart, category, k4);
      InBefore(q, UniqueArgsPart, args, k3);
      InBefore(q, ToPart, to, k2);
    }
  }

  lemma InBefore(q: Part, p: Part, v: Option<Json>, rest: seq<Part>)
    ensures q in Keys(Field(p, v)) + rest <==> (q == p && v.Some?) || q in rest
  {
  }

  /** `{'settings' => settings}`, the wrapper a feature's settings get under its
      name in `filters`. */
  function SettingsJson(s: Settings): Json
  {
    JObject([("settings", JObject(s))])
  }

  /** The `filters` part: one member per feature of the hash, in its order, named
      as in `VALID_OPTIONS`, holding the feature's settings inside the
      `settings` wrapper. */
  function FiltersJson(filters: Hash<Feature, Settings>): (j: Json)
    ensures j.JObject? && |j.members| == |filters|
    ensures forall i :: 0 <= i < |filters| ==> Keys(j.members)[i] == FeatureName(Keys(filters)[i])
    ensures NoDuplicates(Keys(j.members))
    ensures forall f :: Lookup(j.members, FeatureName(f)) ==
              if f in Keys(filters) then Some(JObject([("settings", JObject(Lookup(filters, f).value))]))
              else None
  {
    var members := seq(|filters|, i requires 0 <= i < |filters| =>
                         (FeatureName(filters[i].0), SettingsJson(filters[i].1)));
    forall a, b | FeatureName(a) == FeatureName(b)
      ensures a == b
    {
      FeatureNameInjective(a, b);
    }
    forall f
      ensures Lookup(members, FeatureName(f)) ==
                if f in Keys(filters) then Some(SettingsJson(Lookup(filters, f).value)) else None
    {
      LookupRenamed(filters, members, FeatureName, SettingsJson, f);
    }
    forall i, k | 0 <= i < k < |members|
      ensures Keys(members)[i] != Keys(members)[k]
    {
      assert Keys(filters)[i] != Keys(filters)[k];
    }
    JObject(members)
  }

  /** The `sub` part: the placeholders in their order, each holding its list of
      values as a JSON array. */
  function SubJson(sub: Hash<string, seq<Json>>): (j: Json)
    ensures j.JObject? && Keys(j.members) == Keys(sub)
    ensures forall k :: Lookup(j.members, k) == if k in Keys(sub) then Some(JArray(Lookup(sub, k).value)) else None
  {
    var members := seq(|sub|, i requires 0 <= i < |sub| => (sub[i].0, JArray(sub[i].1)));
    forall k
      ensures Lookup(members, k) == if k in Keys(sub) then Some(JArray(Lookup(sub, k).value)) else None
    {
      LookupRenamed(sub, members, (k: string) => k, (vs: seq<Json>) => JArray(vs), k);
    }
    JObject(members)
  }

  /** The parts that are set, as JSON values. */
  function Parts(h: SmtpApi): seq<(Part, Json)>
  {
    Members(
      if h.to.Some? then Some(Strings(h.to.value)) else None,
      if h.uniqueArgs.Some? then Some(JObject(h.uniqueArgs.value)) else None,
      if h.category.Some? then Some(JString(h.category.value)) else None,
      if h.sub.Some? then Some(SubJson(h.sub.value)) else None,
      if h.filters.Some? then Some(FiltersJson(h.filters.value)) else None)
  }

  /** The parts come in the fixed order `to`, `unique_args`, `category`, `sub`,
      `filters`, each present exactly when the document holds it. */
  lemma PartsOrdered(h: SmtpApi)
    ensures Ranked(Keys(Parts(h)))
    ensures ToPart in Keys(Parts(h)) <==> h.to.Some?
    ensures UniqueArgsPart in Keys(Parts(h)) <==> h.uniqueArgs.Some?
    ensures CategoryPart in Keys(Parts(h)) <==> h.category.Some?
    ensures SubPart in Keys(Parts(h)) <==> h.sub.Some?
    ensures FiltersPart in Keys(Parts(h)) <==> h.filters.Some?
  {
    MembersOrdered(
      if h.to.Some? then Some(Strings(h.to.value)) else None,
      if h.uniqueArgs.Some? then Some(JObject(h.uniqueArgs.value)) else None,
      if h.category.Some? then Some(JString(h.category.value)) else None,
      if h.sub.Some? then Some(SubJson(h.sub.value)) else None,
      if h.filters.Some? then Some(FiltersJson(h.filters.value)) else None);
  }

  /** The parts with their keys spelled as in the header. */
  function Spelled(ms: seq<(Part, Json)>): (r: seq<(string, Json)>)
    ensures |r| == |ms|
    ensures forall i :: 0 <= i < |ms| ==> r[i] == (PartName(ms[i].0), ms[i].1)
  {
    seq(|ms|, i requires 0 <= i < |ms| => (PartName(ms[i].0), ms[i].1))
  }

  /** The document as the JSON object `to_json` prints. */
  function ToJson(h: SmtpApi): Json
  {
    JObject(Spelled(Parts(h)))
  }

  /** `headers_as_json_for_sendgrid`: the printed document after the clean-up
      substitution. */
  function HeaderText(c: ClassConfig, m: MessageConfig, message: Message): string
  {
    Spaced(Print(ToJson(Build(c, m, message))))
  }

  /** The clean-up only inserts spaces: the header is the printed document with
      every character kept in order and spaces inserted, so with every space
      removed it is the printed document, and it is at least as long. */
  lemma HeaderTextOnlyAddsSpaces(c: ClassConfig, m: MessageConfig, message: Message)
    ensures SpacesInserted(Print(ToJson(Build(c, m, message))), HeaderText(c, m, message))
    ensures StripSpaces(HeaderText(c, m, message)) == StripSpaces(Print(ToJson(Build(c, m, message))))
    ensures |HeaderText(c, m, message)| >= |Print(ToJson(Build(c, m, message)))|
  {
    SpacedOnlyAddsSpaces(Print(ToJson(Build(c, m, message))));
  }

  /** `mail`: the header is produced only when every check passes; otherwise the
      first failing check's error is returned and no header exists. */
  function Mail(c: ClassConfig, m: MessageConfig, p: Params, message: Message): (r: Result<string, MailError>)
    ensures r.Success? <==> Validate(p, m.substitutions).Pass?
    ensures r.Failure? ==> r.error == Validate(p, m.substitutions).error
    ensures r.Success? ==> r.value == HeaderText(c, m, message)
  {
    match Validate(p, m.substitutions)
    case Fail(e) => Failure(e)
    case Pass => Success(HeaderText(c, m, message))
  }
}

=== FILE: json.dfy ===
/** The JSON values the header is made of, and a compact printer standing in for
    Ruby's `to_json`: no whitespace between tokens, object members in insertion
    order, and only the two mandatory escapes (`"` and `\`) inside strings. */
module Json {

  datatype Json =
    | JNull
    | JBool(b: bool)
    | JInt(n: int)
    | JString(s: string)
    | JArray(items: seq<Json>)
    | JObject(members: seq<(string, Json)>)

  function DigitChar(d: nat): char
    requires d < 10
  {
    "0123456789"[d]
  }

  function NatToString(n: nat): string
  {
    if n < 10 then [DigitChar(n)] else NatToString(n / 10) + [DigitChar(n % 10)]
  }

  function IntToString(n: int): string
  {
    if n < 0 then "-" + NatToString(-n) else NatToString(n)
  }

  function Escape(s: string): string
  {
    if |s| == 0 then ""
    else if s[0] == '"' || s[0] == '\\' then ['\\', s[0]] + Escape(s[1..])
    else [s[0]] + Escape(s[1..])
  }

  /** Text without a quote or a backslash, which escaping leaves alone. */
  predicate Plain(s: string)
  {
    forall i :: 0 <= i < |s| ==> s[i] != '"' && s[i] != '\\'
  }

  lemma {:induction false} EscapePlain(s: string)
    requires Plain(s)
    ensures Escape(s) == s
  {
    if |s| > 0 {
      assert Plain(s[1..]) by {
        forall i | 0 <= i < |s| - 1 ensures s[1..][i] != '"' && s[1..][i] != '\\' {
          assert s[1..][i] == s[i + 1];
        }
      }
      EscapePlain(s[1..]);
      assert s == [s[0]] + s[1..];
    }
  }

  /** A plain text is printed between quotes and otherwise as it is. */
  lemma QuotePlain(s: string, printed: string)
    requires Plain(s)
    requires printed == "\"" + s + "\""
    ensures Quote(s) == printed
    ensures Print(JString(s)) == printed
  {
    EscapePlain(s);
  }

  /** An object with one plain text member, printed. */
  lemma PrintPlainMember(key: string, value: string, printed: string)
    requires Plain(key) && Plain(value)
    requires printed == "{\"" + key + "\":\"" + value + "\"}"
    ensures Print(JObject([(key, JString(value))])) == printed
  {
    PrintSingleMember(key, JString(value));
    QuotePlain(key, "\"" + key + "\"");
    QuotePlain(value, "\"" + value + "\"");
    assert "{" + ("\"" + key + "\"") + ":" + ("\"" + value + "\"") + "}" == printed;
  }

  function Quote(s: string): string
  {
    "\"" + Escape(s) + "\""
  }

  /** The parts separated by commas. */
  function Join(parts: seq<string>): string
  {
    if |parts| == 0 then ""
    else if |parts| == 1 then parts[0]
    else parts[0] + "," + Join(parts[1..])
  }

  function Print(j: Json): string
    decreases j, 1
  {
    match j
    case JNull => "null"
    case JBool(b) => if b then "true" else "false"
    case JInt(n) => IntToString(n)
    case JString(s) => Quote(s)
    case JArray(items) => "[" + Join(ItemTexts(items)) + "]"
    case JObject(members) =>
      "{" + Join(seq(|members|, i requires 0 <= i < |members| =>
                       Quote(members[i].0) + ":" + Print(members[i].1))) + "}"
  }

  /** The printed elements of an array. */
  function ItemTexts(items: seq<Json>): (r: seq<string>)
    ensures |r| == |items|
    ensures forall i :: 0 <= i < |items| ==> r[i] == Print(items[i])
    decreases items, 0
  {
    seq(|items|, i requires 0 <= i < |items| => Print(items[i]))
  }

  /** The printed members of an object, each `"key":value`. */
  function MemberTexts(members: seq<(string, Json)>): (r: seq<string>)
    ensures |r| == |members|
    ensures forall i :: 0 <= i < |members| ==> r[i] == Quote(members[i].0) + ":" + Print(members[i].1)
  {
    seq(|members|, i requires 0 <= i < |members| => Quote(members[i].0) + ":" + Print(members[i].1))
  }

  lemma PrintObject(members: seq<(string, Json)>)
    ensures Print(JObject(members)) == "{" + Join(MemberTexts(members)) + "}"
  {
    var texts := seq(|members|, i requires 0 <= i < |members| =>
                       Quote(members[i].0) + ":" + Print(members[i].1));
    assert texts == MemberTexts(members);
  }

  /** An object of one member prints as that member in braces. */
  lemma PrintSingleMember(key: string, value: Json)
    ensures Print(JObject([(key, value)])) == "{" + Quote(key) + ":" + Print(value) + "}"
  {
    PrintObject([(key, value)]);
    assert MemberTexts([(key, value)]) == [Quote(key) + ":" + Print(value)];
  }

  function Strings(ss: seq<string>): Json
  {
    JArray(seq(|ss|, i requires 0 <= i < |ss| => JString(ss[i])))
  }
}

=== FILE: options.dfy ===
/** The option registry of lib/sendgrid.rb: the closed lists `VALID_OPTIONS` and
    `VALID_GANALYTICS_OPTIONS`, and the filters through which the enable, disable
    and Google-Analytics setters pass their arguments. Unknown names are dropped
    silently, never reported. */
module Options {
  import opened Wrappers
  import opened Json
  import opened Seqs

  /** A Ruby argument that names something: a symbol (`:opentrack`) or a string
      (`"opentrack"`). The two are different values to Ruby's `==` and
      `Array#include?`, and the same after `to_sym` or `to_s`. */
  datatype Name = Sym(id: string) | Str(text: string)
  {
    /** `to_s` (and what `to_json` prints for either kind). */
    function Text(): string
    {
      match this
      case Sym(id) => id
      case Str(text) => text
    }
  }

  /** The members of `VALID_OPTIONS`. */
  datatype Feature =
    | OpenTrack
    | ClickTrack
    | GAnalytics
    | Gravatar
    | SubscriptionTrack
    | Footer
    | SpamCheck
    | BypassListManagement

  function FeatureName(f: Feature): string
  {
    match f
    case OpenTrack => "opentrack"
    case ClickTrack => "clicktrack"
    case GAnalytics => "ganalytics"
    case Gravatar => "gravatar"
    case SubscriptionTrack => "subscriptiontrack"
    case Footer => "footer"
    case SpamCheck => "spamcheck"
    case BypassListManagement => "bypass_list_management"
  }

  /** `VALID_OPTIONS.include?(option)`, answering with the member it names: only a
      symbol spelled like a member is included. */
  function FeatureOf(n: Name): (r: Option<Feature>)
    ensures r.Some? ==> n == Sym(FeatureName(r.value))
    ensures r.None? ==> forall f :: n != Sym(FeatureName(f))
  {
    match n
    case Str(_) => None
    case Sym(id) =>
      if id == "opentrack" then Some(OpenTrack)
      else if id == "clicktrack" then Some(ClickTrack)
      else if id == "ganalytics" then Some(GAnalytics)
      else if id == "gravatar" then Some(Gravatar)
      else if id == "subscriptiontrack" then Some(SubscriptionTrack)
      else if id == "footer" then Some(Footer)
      else if id == "spamcheck" then Some(SpamCheck)
      else if id == "bypass_list_management" then Some(BypassListManagement)
      else None
  }

  /** The symbol of every member is recognised as that member. */
  lemma FeatureOfName(f: Feature)
    ensures FeatureOf(Sym(FeatureName(f))) == Some(f)
  {
  }

  /** The members of `VALID_GANALYTICS_OPTIONS`. */
  datatype AnalyticsKey = UtmSource | UtmMedium | UtmCampaign | UtmTerm | UtmContent

  function AnalyticsName(k: AnalyticsKey): string
  {
    match k
    case UtmSource => "utm_source"
    case UtmMedium => "utm_medium"
    case UtmCampaign => "utm_campaign"
    case UtmTerm => "utm_term"
    case UtmContent => "utm_content"
  }

  /** `VALID_GANALYTICS_OPTIONS.include?(key.to_sym)`: the key is converted with
      `to_sym` first, so a string spelled like a member is accepted too. */
  function AnalyticsKeyOf(n: Name): (r: Option<AnalyticsKey>)
    ensures r.Some? ==> n.Text() == AnalyticsName(r.value)
    ensures r.None? ==> forall k :: n.Text() != AnalyticsName(k)
  {
    var t := n.Text();
    if t == "utm_source" then Some(UtmSource)
    else if t == "utm_medium" then Some(UtmMedium)
    else if t == "utm_campaign" then Some(UtmCampaign)
    else if t == "utm_term" then Some(UtmTerm)
    else if t == "utm_content" then Some(UtmContent)
    else None
  }

  /** The arguments of `sendgrid_enable` (class and instance) and of the instance
      `sendgrid_disable` that survive the `VALID_OPTIONS` test, in argument order,
      duplicates kept: each member appears exactly as often as its symbol does. */
  function ValidFeatures(names: seq<Name>): (r: seq<Feature>)
  {
    if |names| == 0 then [] else Recognised(names[0]) + ValidFeatures(names[1..])
  }

  /** Each member survives exactly as often as its symbol is passed. */
  lemma {:induction false} ValidFeaturesCount(names: seq<Name>, f: Feature)
    ensures multiset(ValidFeatures(names))[f] == multiset(names)[Sym(FeatureName(f))]
  {
    if |names| > 0 {
      ValidFeaturesCount(names[1..], f);
      RecognisedCount(names[0], f);
      assert names == [names[0]] + names[1..];
    }
  }

  /** The single argument `n` as it survives the `VALID_OPTIONS` test. */
  function Recognised(n: Name): seq<Feature>
  {
    match FeatureOf(n)
    case Some(f) => [f]
    case None => []
  }

  lemma RecognisedCount(n: Name, f: Feature)
    ensures multiset(Recognised(n))[f] == if n == Sym(FeatureName(f)) then 1 else 0
  {
    if FeatureOf(n).Some? {
      FeatureNameInjective(FeatureOf(n).value, f);
    }
  }

  lemma FeatureNameInjective(f: Feature, g: Feature)
    ensures FeatureName(f) == FeatureName(g) ==> f == g
  {
    FeatureOfName(f);
    FeatureOfName(g);
  }

  /** Filtering distributes over concatenation: two calls with `a` and then `b`
      append what one call with `a + b` would. */
  lemma {:induction false} ValidFeaturesAppend(a: seq<Name>, b: seq<Name>)
    ensures ValidFeatures(a + b) == ValidFeatures(a) + ValidFeatures(b)
  {
    if |a| == 0 {
      assert a + b == b;
    } else {
      var c := a + b;
      assert ValidFeatures(c) == Recognised(a[0]) + ValidFeatures(a[1..] + b) by {
        assert c[1..] == a[1..] + b;
        assert c[0] == a[0];
      }
      ValidFeaturesAppend(a[1..], b);
      Associative(Recognised(a[0]), ValidFeatures(a[1..]), ValidFeatures(b));
    }
  }

  /** The pairs of `sendgrid_ganalytics_options` whose key survives the
      `VALID_GANALYTICS_OPTIONS` test, in argument order, duplicates kept. */
  function ValidAnalytics(pairs: seq<(Name, Json)>): (r: seq<(AnalyticsKey, Json)>)
  {
    if |pairs| == 0 then []
    else RecognisedPair(pairs[0]) + ValidAnalytics(pairs[1..])
  }

  /** The single pair `p` as it survives the `VALID_GANALYTICS_OPTIONS` test. */
  function RecognisedPair(p: (Name, Json)): seq<(AnalyticsKey, Json)>
  {
    match AnalyticsKeyOf(p.0)
    case Some(k) => [(k, p.1)]
    case None => []
  }

  lemma AnalyticsNameInjective(k: AnalyticsKey, l: AnalyticsKey)
    ensures AnalyticsName(k) == AnalyticsName(l) ==> k == l
  {
    if AnalyticsName(k) == AnalyticsName(l) {
      assert AnalyticsKeyOf(Sym(AnalyticsName(k))) == Some(k);
      assert AnalyticsKeyOf(Sym(AnalyticsName(l))) == Some(l);
    }
  }

  /** A single pair survives exactly when its key, converted with `to_sym`, is a
      member of `VALID_GANALYTICS_OPTIONS`; it then keeps its value, with that
      member as its key. With `ValidAnalyticsAppend` this fixes the filter on
      every argument list. */
  lemma ValidAnalyticsOne(n: Name, v: Json)
    ensures forall k :: n.Text() == AnalyticsName(k) ==> ValidAnalytics([(n, v)]) == [(k, v)]
    ensures (forall k :: n.Text() != AnalyticsName(k)) ==> ValidAnalytics([(n, v)]) == []
  {
    assert ValidAnalytics([(n, v)]) == RecognisedPair((n, v)) + ValidAnalytics([]);
    forall k | n.Text() == AnalyticsName(k)
      ensures ValidAnalytics([(n, v)]) == [(k, v)]
    {
      AnalyticsNameInjective(AnalyticsKeyOf(n).value, k);
    }
  }

  /** Every retained pair comes from an argument pair whose key spells it and
      whose value it keeps; nothing is added. */
  lemma {:induction false} ValidAnalyticsFrom(pairs: seq<(Name, Json)>)
    ensures |ValidAnalytics(pairs)| <= |pairs|
    ensures forall p :: p in ValidAnalytics(pairs) ==>
              exists q :: q in pairs && q.0.Text() == AnalyticsName(p.0) && q.1 == p.1
  {
    if |pairs| > 0 {
      ValidAnalyticsFrom(pairs[1..]);
      var r := ValidAnalytics(pairs);
      forall p | p in r
        ensures exists q :: q in pairs && q.0.Text() == AnalyticsName(p.0) && q.1 == p.1
      {
        if p in RecognisedPair(pairs[0]) {
          assert pairs[0] in pairs;
        } else {
          var q :| q in pairs[1..] && q.0.Text() == AnalyticsName(p.0) && q.1 == p.1;
          assert q in pairs;
        }
      }
    }
  }

  /** Filtering the pairs distributes over concatenation, like `ValidFeatures`. */
  lemma {:induction false} ValidAnalyticsAppend(a: seq<(Name, Json)>, b: seq<(Name, Json)>)
    ensures ValidAnalytics(a + b) == ValidAnalytics(a) + ValidAnalytics(b)
  {
    if |a| == 0 {
      assert a + b == b;
    } else {
      var c := a + b;
      assert ValidAnalytics(c) == RecognisedPair(a[0]) + ValidAnalytics(a[1..] + b) by {
        assert c[1..] == a[1..] + b;
        assert c[0] == a[0];
      }
      ValidAnalyticsAppend(a[1..], b);
      Associative(RecognisedPair(a[0]), ValidAnalytics(a[1..]), ValidAnalytics(b));
    }
  }

  /** `options.delete(option)` on the class defaults: every element equal to the
      argument goes. Only symbols can be equal to a stored member. */
  function Delete(options: seq<Feature>, n: Name): (r: seq<Feature>)
    ensures forall f :: multiset(r)[f] == if n == Sym(FeatureName(f)) then 0 else multiset(options)[f]
  {
    if |options| == 0 then []
    else
      assert options == [options[0]] + options[1..];
      (if n == Sym(FeatureName(options[0])) then [] else [options[0]]) + Delete(options[1..], n)
  }

  /** The class-level `sendgrid_disable`: one `delete` per argument, in order. */
  function DeleteEach(options: seq<Feature>, names: seq<Name>): seq<Feature>
  {
    if |names| == 0 then options
    else Delete(DeleteEach(options, names[..|names| - 1]), names[|names| - 1])
  }

  /** A reference definition of the class-level disable: the defaults filtered in one
      pass, keeping each member whose symbol is not among the arguments. */
  function Without(options: seq<Feature>, names: seq<Name>): (r: seq<Feature>)
    ensures forall f :: multiset(r)[f] == if Sym(FeatureName(f)) in names then 0 else multiset(options)[f]
  {
    if |options| == 0 then []
    else
      assert options == [options[0]] + options[1..];
      (if Sym(FeatureName(options[0])) in names then [] else [options[0]]) + Without(options[1..], names)
  }

  lemma {:induction false} DeleteWithout(options: seq<Feature>, names: seq<Name>, n: Name)
    ensures Delete(Without(options, names), n) == Without(options, names + [n])
  {
    if |options| > 0 {
      DeleteWithout(options[1..], names, n);
      var h := options[0];
      assert Sym(FeatureName(h)) in names + [n] <==> Sym(FeatureName(h)) in names || n == Sym(FeatureName(h));
      if Sym(FeatureName(h)) in names {
        assert Without(options, names) == Without(options[1..], names);
      } else {
        assert Without(options, names) == [h] + Without(options[1..], names);
        assert ([h] + Without(options[1..], names))[1..] == Without(options[1..], names);
      }
    }
  }

  /** Deleting the arguments one after another keeps, in their original order,
      exactly the defaults whose symbol was not named, every occurrence of a named
      one removed. */
  lemma {:induction false} DeleteEachIsWithout(options: seq<Feature>, names: seq<Name>)
    ensures DeleteEach(options, names) == Without(options, names)
    ensures forall f :: multiset(DeleteEach(options, names))[f] ==
              if Sym(FeatureName(f)) in names then 0 else multiset(options)[f]
  {
    if |names| == 0 {
      assert names == [];
      WithoutNothing(options);
    } else {
      var p := names[..|names| - 1];
      DeleteEachIsWithout(options, p);
      DeleteWithout(options, p, names[|names| - 1]);
      assert p + [names[|names| - 1]] == names;
    }
  }

  lemma {:induction false} WithoutNothing(options: seq<Feature>)
    ensures Without(options, []) == options
  {
    if |options| > 0 {
      WithoutNothing(options[1..]);
      assert options == [options[0]] + options[1..];
    }
  }
}

=== FILE: scenarios.dfy ===
/** The examples of spec/sendgrid_spec.rb, stated about the model. The mailer
    under test sends from "Bob Sacamento <bob@example.com>" with the subject
    "Cat-fight"; the mail library reduces each recipient to its bare address. */
module Scenarios {
  import opened Wrappers
  import opened Hashes
  import opened Json
  import opened Options
  import opened Config
  import opened Validation
  import opened Header
  import opened Cleanup

  const Bob := "Bob Sacamento <bob@example.com>"
  const Kramer := "kramer@example.com"
  const Newman := "newman@example.com"

  function OneRecipient(): Message
  {
    Message([Kramer], "Cat-fight")
  }

  function TwoRecipients(): Message
  {
    Message([Kramer, Newman], "Cat-fight")
  }

  /** Class-level `sendgrid_category "category_1"` reaches the header of a
      mailer that sets nothing itself. */
  lemma ClassCategoryExample()
    ensures Build(ClassCategory(NoDefaults, Str("category_1")), NoOverrides, OneRecipient()).category
            == Some("category_1")
  {
  }

  lemma MembersToAndCategory(to: Json, category: Json)
    ensures Members(Some(to), None, Some(category), None, None) == [(ToPart, to), (CategoryPart, category)]
  {
    var none: seq<(Part, Json)> := [];
    assert Members(Some(to), None, Some(category), None, None)
           == [(ToPart, to)] + (none + ([(CategoryPart, category)] + (none + none)));
  }

  lemma PartsToAndCategory(to: seq<string>, category: string)
    ensures Parts(SmtpApi(Some(to), None, Some(category), None, None))
            == [(ToPart, Strings(to)), (CategoryPart, JString(category))]
  {
    MembersToAndCategory(Strings(to), JString(category));
  }

  lemma MembersToAndArgs(to: Json, args: Json)
    ensures Members(Some(to), Some(args), None, None, None) == [(ToPart, to), (UniqueArgsPart, args)]
  {
    var none: seq<(Part, Json)> := [];
    assert Members(Some(to), Some(args), None, None, None)
           == [(ToPart, to)] + ([(UniqueArgsPart, args)] + (none + (none + none)));
  }

  lemma PartsToAndArgs(to: seq<string>, args: Hash<string, Json>)
    ensures Parts(SmtpApi(Some(to), Some(args), None, None, None))
            == [(ToPart, Strings(to)), (UniqueArgsPart, JObject(args))]
  {
    MembersToAndArgs(Strings(to), JObject(args));
  }

  /** The two shapes of document the examples produce. */
  lemma ToJsonToAndCategory(to: seq<string>, category: string)
    ensures ToJson(SmtpApi(Some(to), None, Some(category), None, None))
            == JObject([("to", Strings(to)), ("category", JString(category))])
  {
    PartsToAndCategory(to, category);
    var ms := [(ToPart, Strings(to)), (CategoryPart, JString(category))];
    assert Spelled(ms) == [("to", Strings(to)), ("category", JString(category))];
  }

  lemma ToJsonToAndArgs(to: seq<string>, args: Hash<string, Json>)
    ensures ToJson(SmtpApi(Some(to), Some(args), None, None, None))
            == JObject([("to", Strings(to)), ("unique_args", JObject(args))])
  {
    PartsToAndArgs(to, args);
    var ms := [(ToPart, Strings(to)), (UniqueArgsPart, JObject(args))];
    assert Spelled(ms) == [("to", Strings(to)), ("unique_args", JObject(args))];
  }

  /** Instance `sendgrid_category "category_1"`: the document holds the
      recipient list and the category, in that order, and nothing else. */
  lemma InstanceCategoryExample()
    ensures ToJson(Build(NoDefaults, Category(NoOverrides, Str("category_1")), OneRecipient()))
            == JObject([("to", JArray([JString(Kramer)])), ("category", JString("category_1"))])
  {
    assert Build(NoDefaults, Category(NoOverrides, Str("category_1")), OneRecipient())
           == SmtpApi(Some([Kramer]), None, Some("category_1"), None, None);
    ToJsonToAndCategory([Kramer], "category_1");
    assert Strings([Kramer]) == JArray([JString(Kramer)]);
  }

  const CampaignArgs: Hash<string, Json> := [("campaign_id", JInt(12345))]

  lemma CampaignArgsHeader()
    ensures UniqueArgsHeader(NoDefaults, UniqueArgs(NoOverrides, CampaignArgs)) == Some(CampaignArgs)
  {
    var u := UniqueArgsHeader(NoDefaults, UniqueArgs(NoOverrides, CampaignArgs));
    assert u.Some?;
    assert Keys(u.value) == AddNew([], Keys(CampaignArgs));
    assert Keys(CampaignArgs) == ["campaign_id"];
    assert Keys(u.value) == ["campaign_id"];
    assert Lookup(u.value, "campaign_id") == Some(JInt(12345)) == Lookup(CampaignArgs, "campaign_id");
    HashExtensional(u.value, CampaignArgs);
  }

  lemma CampaignBuild()
    ensures Build(NoDefaults, UniqueArgs(NoOverrides, CampaignArgs), OneRecipient())
            == SmtpApi(Some([Kramer]), Some(CampaignArgs), None, None, None)
  {
    CampaignArgsHeader();
    var m := UniqueArgs(NoOverrides, CampaignArgs);
    assert FiltersHeader(NoDefaults, m) == None;
    assert CategoryHeader(NoDefaults, m, "Cat-fight") == None;
    assert SubstitutionsHeader(m) == None;
    assert Recipients(m, OneRecipient()) == Some([Kramer]);
  }

  /** Instance `sendgrid_unique_args({campaign_id: 12345})`: the document holds
      the recipient list and the unique arguments. */
  lemma UniqueArgsExample()
    ensures ToJson(Build(NoDefaults, UniqueArgs(NoOverrides, CampaignArgs), OneRecipient()))
            == JObject([("to", JArray([JString(Kramer)])), ("unique_args", JObject(CampaignArgs))])
  {
    CampaignBuild();
    ToJsonToAndArgs([Kramer], CampaignArgs);
    assert Strings([Kramer]) == JArray([JString(Kramer)]);
  }

  /** A message without a sender is refused. */
  lemma RequiresSenderExample()
    ensures Mail(NoDefaults, NoOverrides, Params(None, ToList(["Cosmo Kramer <kramer@example.com>"])), OneRecipient())
            == Failure(MissingSender)
  {
  }

  /** A message without `:to` is refused. */
  lemma RequiresRecipientExample()
    ensures Mail(NoDefaults, NoOverrides, Params(Some(Bob), NoTo), OneRecipient()) == Failure(ToNotArray)
  {
    BobIsSender();
  }

  /** Every recipient goes into the `to` list of the header. */
  lemma RecipientsExample()
    ensures Build(NoDefaults, NoOverrides, TwoRecipients()).to == Some([Kramer, Newman])
  {
  }

  const FirstNames: seq<Json> := [JString("Cosmo"), JString("Newman")]
  const LastNames: seq<Json> := [JString("Kramer"), JNull]
  const BothAddresses := ["Cosmo Kramer <kramer@example.com>", "Newman <newman@example.com>"]

  function WithNames(): MessageConfig
  {
    Substitute(Substitute(NoOverrides, "|first_name|", FirstNames), "|last_name|", LastNames)
  }

  lemma WithNamesSubstitutions()
    ensures WithNames().substitutions == [("|first_name|", FirstNames), ("|last_name|", LastNames)]
  {
    var first: Hash<string, seq<Json>> := [("|first_name|", FirstNames)];
    assert Keys<string, seq<Json>>([]) == [];
    SubstituteNew(NoOverrides, "|first_name|", FirstNames);
    assert Keys(first) == ["|first_name|"];
    SubstituteNew(Substitute(NoOverrides, "|first_name|", FirstNames), "|last_name|", LastNames);
  }

  lemma BobIsSender()
    ensures SenderPresent(Some(Bob))
  {
    assert !IsSpace(Bob[0]);
  }

  const BothParams := Params(Some(Bob), ToList(BothAddresses))

  lemma BothNamesPass()
    ensures Validate(BothParams, [("|first_name|", FirstNames), ("|last_name|", LastNames)]) == Pass
  {
    var subs: Hash<string, seq<Json>> := [("|first_name|", FirstNames), ("|last_name|", LastNames)];
    BobIsSender();
    assert forall i :: 0 <= i < |subs| ==> |subs[i].1| == |BothAddresses|;
    assert Validate(BothParams, subs).Pass?;
  }

  lemma WithNamesValidate()
    ensures Validate(BothParams, WithNames().substitutions) == Pass
  {
    WithNamesSubstitutions();
    BothNamesPass();
  }

  const Names: Hash<string, seq<Json>> := [("|first_name|", FirstNames), ("|last_name|", LastNames)]

  lemma NamesBuild()
    ensures Build(NoDefaults, WithNames(), TwoRecipients()) == SmtpApi(Some([Kramer, Newman]), None, None, Some(Names), None)
  {
    WithNamesSubstitutions();
    var m := WithNames();
    assert UniqueArgsHeader(NoDefaults, m) == None;
    assert CategoryHeader(NoDefaults, m, "Cat-fight") == None;
    assert FiltersHeader(NoDefaults, m) == None;
  }

  lemma MembersToAndSub(to: Json, sub: Json)
    ensures Members(Some(to), None, None, Some(sub), None) == [(ToPart, to), (SubPart, sub)]
  {
    var none: seq<(Part, Json)> := [];
    assert Members(Some(to), None, None, Some(sub), None)
           == [(ToPart, to)] + (none + (none + ([(SubPart, sub)] + none)));
  }

  lemma ToJsonToAndSub(to: seq<string>, sub: Hash<string, seq<Json>>)
    ensures ToJson(SmtpApi(Some(to), None, None, Some(sub), None))
            == JObject([("to", Strings(to)), ("sub", SubJson(sub))])
  {
    MembersToAndSub(Strings(to), SubJson(sub));
    var ms := [(ToPart, Strings(to)), (SubPart, SubJson(sub))];
    assert Spelled(ms) == [("to", Strings(to)), ("sub", SubJson(sub))];
  }

  lemma NamesJson()
    ensures SubJson(Names) == JObject([("|first_name|", JArray(FirstNames)), ("|last_name|", JArray(LastNames))])
  {
    assert SubJson(Names).members[0] == ("|first_name|", JArray(FirstNames));
    assert SubJson(Names).members[1] == ("|last_name|", JArray(LastNames));
  }

  /** Two `sendgrid_substitute` calls: the document holds the recipient list and
      then `sub`, whose placeholders come in call order, each with its list as
      given (`nil` included); and the message passes the checks with two
      recipients. */
  lemma SubstitutionsExample()
    ensures ToJson(Build(NoDefaults, WithNames(), TwoRecipients()))
            == JObject([("to", Strings([Kramer, Newman])),
                        ("sub", JObject([("|first_name|", JArray(FirstNames)), ("|last_name|", JArray(LastNames))]))])
    ensures Mail(NoDefaults, WithNames(), BothParams, TwoRecipients()).Success?
  {
    NamesBuild();
    ToJsonToAndSub([Kramer, Newman], Names);
    NamesJson();
    WithNamesValidate();
  }

  const OneName: seq<Json> := [JString("Cosmo")]

  lemma OneNameValidate()
    ensures Validate(BothParams, Substitute(NoOverrides, "|first_name|", OneName).substitutions)
            == Fail(SubstitutionMismatch("|first_name|"))
  {
    var subs: Hash<string, seq<Json>> := [("|first_name|", OneName)];
    assert Substitute(NoOverrides, "|first_name|", OneName).substitutions == subs by {
      assert Keys<string, seq<Json>>([]) == [];
      SubstituteNew(NoOverrides, "|first_name|", OneName);
    }
    assert SenderPresent(BothParams.from) by {
      BobIsSender();
    }
    assert ToPresent(BothParams.to) && |BothParams.to.addresses| == 2;
    assert FirstMismatch(subs, 2) == Some(0);
  }

  /** One name for two recipients: the message is refused, naming the
      placeholder. */
  lemma SubstitutionMismatchExample()
    ensures Mail(NoDefaults, Substitute(NoOverrides, "|first_name|", OneName), BothParams, TwoRecipients())
            == Failure(SubstitutionMismatch("|first_name|"))
  {
    OneNameValidate();
  }

  /** With nothing configured and the recipients left visible, the header is the
      empty object. */
  lemma EmptyHeaderExample(message: Message)
    ensures HeaderText(NoDefaults, PublicizeRecipients(NoOverrides), message) == "{}"
  {
    var h := Build(NoDefaults, PublicizeRecipients(NoOverrides), message);
    assert h == SmtpApi(None, None, None, None, None);
    assert Parts(h) == [];
    assert ToJson(h) == JObject([]);
    PrintObject([]);
    assert Print(JObject([])) == "{}";
    SpacedKeepsStart("{}");
  }

  /** From the substitution example: a space goes after the separator between
      two strings. */
  lemma SubSpacingExample()
    ensures Spaced("\"Cosmo\",\"Newman\"") == "\"Cosmo\", \"Newman\""
  {
    var c2 := "Newman\"";
    var g2 := "\",\"" + c2;
    assert Spaced(g2) == "\", \"" + c2 by {
      SpacedWithoutMatch(c2);
      SpacedGroup('"', ',', '"', c2);
      assert g2 == ['"', ',', '"'] + c2;
    }
    var c1 := "\"Cosmo";
    assert Spaced(c1 + g2) == c1 + ("\", \"" + c2) by {
      SpacedPlainLocal(c1, g2);
    }
    assert c1 + g2 == "\"Cosmo\",\"Newman\"";
    assert c1 + ("\", \"" + c2) == "\"Cosmo\", \"Newman\"";
  }

  /** From the substitution example: no space before `null`, which opens
      nothing. */
  lemma NullSpacingExample()
    ensures Spaced("\"Kramer\",null") == "\"Kramer\",null"
  {
    SpacedWithoutMatch("\"Kramer\",null");
  }

  lemma PartsCategoryOnly(category: string)
    ensures Parts(SmtpApi(None, None, Some(category), None, None)) == [(CategoryPart, JString(category))]
  {
    var none: seq<(Part, Json)> := [];
    assert Members(None, None, Some(JString(category)), None, None)
           == none + (none + ([(CategoryPart, JString(category))] + (none + none)));
  }

  lemma ToJsonCategoryOnly(category: string)
    ensures ToJson(SmtpApi(None, None, Some(category), None, None)) == JObject([("category", JString(category))])
  {
    PartsCategoryOnly(category);
    assert Spelled([(CategoryPart, JString(category))]) == [("category", JString(category))];
  }

  /** A category value holding `],[`, which needs no escaping. */
  const Tricky := "a],[b"

  lemma TrickyPrinted()
    ensures Print(JObject([("category", JString(Tricky))])) == "{\"" + "category" + "\":\"a],[b\"}"
  {
    PrintPlainMember("category", Tricky, "{\"" + "category" + "\":\"a],[b\"}");
  }

  lemma TrickyTail()
    ensures Spaced("\":\"a],[b\"}") == "\": \"a], [b\"}"
  {
    var c3 := "b\"}";
    var g2 := "],[" + c3;
    assert Spaced(g2) == "], [" + c3 by {
      SpacedWithoutMatch(c3);
      SpacedGroup(']', ',', '[', c3);
      assert g2 == [']', ',', '['] + c3;
    }
    var c2 := "a";
    assert Spaced(c2 + g2) == c2 + ("], [" + c3) by {
      SpacedPlainLocal(c2, g2);
    }
    var g1 := ['"', ':', '"'] + (c2 + g2);
    assert Spaced(g1) == ['"', ':', ' ', '"'] + (c2 + ("], [" + c3)) by {
      SpacedGroup('"', ':', '"', c2 + g2);
    }
    assert g1 == "\":\"a],[b\"}";
    assert ['"', ':', ' ', '"'] + (c2 + ("], [" + c3)) == "\": \"a], [b\"}";
  }

  lemma TrickySpaced()
    ensures Spaced("{\"" + "category" + "\":\"a],[b\"}") == "{\"" + "category" + "\": \"a], [b\"}"
  {
    TrickyTail();
    assert forall i :: 0 <= i < |"category"| ==> !Closer("category"[i]) && !Separator("category"[i]);
    SpacedOpenKey("category", "\":\"a],[b\"}");
  }

  lemma TrickyBuild(message: Message)
    ensures Build(NoDefaults, PublicizeRecipients(Category(NoOverrides, Str(Tricky))), message)
            == SmtpApi(None, None, Some(Tricky), None, None)
  {
    var m := PublicizeRecipients(Category(NoOverrides, Str(Tricky)));
    assert Recipients(m, message) == None;
    assert UniqueArgsHeader(NoDefaults, m) == None;
    assert CategoryHeader(NoDefaults, m, message.subject) == Some(Tricky);
    assert SubstitutionsHeader(m) == None;
    assert FiltersHeader(NoDefaults, m) == None;
  }

  lemma TrickyDocument(message: Message)
    ensures ToJson(Build(NoDefaults, PublicizeRecipients(Category(NoOverrides, Str(Tricky))), message))
            == JObject([("category", JString(Tricky))])
  {
    TrickyBuild(message);
    ToJsonCategoryOnly(Tricky);
  }

  /** The clean-up does not know about string literals: a category value holding
      `],[` comes out of the header as `a], [b`, so reading the header back does
      not give the value that was set. */
  lemma CleanupAltersStringValues(message: Message)
    ensures HeaderText(NoDefaults, PublicizeRecipients(Category(NoOverrides, Str(Tricky))), message)
            == "{\"category\": \"a], [b\"}"
    ensures "a], [b" != Tricky
  {
    assert "{\"" + "category" + "\": \"a], [b\"}" == "{\"category\": \"a], [b\"}";
    TrickyDocument(message);
    TrickyPrinted();
    TrickySpaced();
    assert |"a], [b"| != |Tricky|;
  }
}

=== FILE: seqs.dfy ===
/** Facts about sequences used by several modules. */
module Seqs {
  /** Concatenation regroups freely. */
  lemma Associative<T>(x: seq<T>, y: seq<T>, z: seq<T>)
    ensures x + (y + z) == (x + y) + z
  {
  }
}

=== FILE: validation.dfy ===
/** The checks `mail` makes before the header is built (lib/sendgrid.rb, `mail`
    and `ensure_substitutions_match_recipients!`). Every failure raises an
    `ArgumentError` in the source; here it is a `Fail` carrying which check it was. */
module Validation {
  import opened Wrappers
  import opened Hashes
  import opened Json

  /** The `:to` entry of the `mail` parameters: absent, a single string, or an
      array of addresses. */
  datatype To = NoTo | ToText(text: string) | ToList(addresses: seq<string>)

  /** The `mail` parameters the checks read. */
  datatype Params = Params(from: Option<string>, to: To)

  /** One error per `raise` in the source, in the order they are checked. */
  datatype MailError =
    | MissingSender                             // "sender required"
    | ToNotArray                                // ":to needs to be an array"
    | NoRecipients                              // "at least one recipient required"
    | SubstitutionMismatch(placeholder: string) // "Array for ... is not the same size ..."

  predicate IsSpace(c: char)
  {
    c == ' ' || c == '\t' || c == '\n' || c == '\r' || c == 11 as char || c == 12 as char
  }

  /** ActiveSupport's `blank?` on a string: empty or only white space. */
  predicate Blank(s: string)
  {
    forall i :: 0 <= i < |s| ==> IsSpace(s[i])
  }

  /** `params[:from].present?`. */
  predicate SenderPresent(from: Option<string>)
  {
    from.Some? && !Blank(from.value)
  }

  /** `params[:to].present?`: an array is present when it is not empty. */
  predicate ToPresent(to: To)
  {
    match to
    case NoTo => false
    case ToText(s) => !Blank(s)
    case ToList(a) => |a| > 0
  }

  /** `present?` as `mail` applies it to `:from` and `:to`: `nil`, the empty
      string, a string of white space and the empty array are all absent; a
      string is present as soon as it holds one other character, and an array as
      soon as it holds one element. */
  lemma Presence(from: Option<string>, to: To)
    ensures SenderPresent(from) <==>
              from.Some? && exists i :: 0 <= i < |from.value| && !IsSpace(from.value[i])
    ensures to.ToText? ==> (ToPresent(to) <==> exists i :: 0 <= i < |to.text| && !IsSpace(to.text[i]))
    ensures to.ToList? ==> (ToPresent(to) <==> |to.addresses| > 0)
    ensures !ToPresent(NoTo) && !ToPresent(ToList([])) && !ToPresent(ToText(" \t\n"))
    ensures !SenderPresent(None) && !SenderPresent(Some("")) && !SenderPresent(Some(" \t\n"))
  {
  }

  /** The position of the first placeholder, in insertion order, whose value list
      does not have `n` entries; `None` when all of them do. */
  function FirstMismatch(subs: seq<(string, seq<Json>)>, n: nat): (r: Option<nat>)
    ensures r.Some? ==> r.value < |subs| && |subs[r.value].1| != n
    ensures r.Some? ==> forall j :: 0 <= j < r.value ==> |subs[j].1| == n
    ensures r.None? <==> forall j :: 0 <= j < |subs| ==> |subs[j].1| == n
  {
    if |subs| == 0 then None
    else if |subs[0].1| != n then Some(0)
    else match FirstMismatch(subs[1..], n)
      case None => None
      case Some(i) => Some(i + 1)
  }

  /** The checks of `mail` followed by `ensure_substitutions_match_recipients!`,
      in source order. The message passes exactly when the sender is present,
      `:to` is a non-empty array, and every substitution list has one entry per
      element of `:to`; otherwise the first failing check names the error. */
  function Validate(p: Params, subs: Hash<string, seq<Json>>): (r: Outcome<MailError>)
    ensures r.Pass? <==>
              && SenderPresent(p.from)
              && p.to.ToList? && |p.to.addresses| > 0
              && forall i :: 0 <= i < |subs| ==> |subs[i].1| == |p.to.addresses|
    ensures r == Fail(MissingSender) <==> !SenderPresent(p.from)
    ensures r == Fail(ToNotArray) <==> SenderPresent(p.from) && !(p.to.ToList? && |p.to.addresses| > 0)
    ensures r.Fail? && r.error.SubstitutionMismatch? ==>
              && SenderPresent(p.from) && p.to.ToList? && |p.to.addresses| > 0
              && exists i :: 0 <= i < |subs| && subs[i].0 == r.error.placeholder
                             && |subs[i].1| != |p.to.addresses|
                             && forall j :: 0 <= j < i ==> |subs[j].1| == |p.to.addresses|
  {
    if !SenderPresent(p.from) then Fail(MissingSender)
    else if !(ToPresent(p.to) && p.to.ToList?) then Fail(ToNotArray)
    else if !(|p.to.addresses| > 0) then Fail(NoRecipients)
    else match FirstMismatch(subs, |p.to.addresses|)
      case Some(i) => Fail(SubstitutionMismatch(subs[i].0))
      case None => Pass
  }

  /** The "at least one recipient required" check can never fail: an empty array
      is not `present?`, so the check before it already rejected it with the
      ":to needs to be an array" error. */
  lemma NoRecipientsUnreachable(p: Params, subs: Hash<string, seq<Json>>)
    ensures Validate(p, subs) != Fail(NoRecipients)
    ensures SenderPresent(p.from) && p.to == ToList([]) ==> Validate(p, subs) == Fail(ToNotArray)
  {
  }
}

=== FILE: wrappers.dfy ===
/** Option, Result and Outcome: the failure-carrying values the rest of the model
    returns instead of Ruby's `nil` and raised `ArgumentError`s. */
module Wrappers {

  datatype Option<+T> = None | Some(value: T) {

    /** Ruby's `a || b` on two possibly-nil values: the first one that is set. */
    function OrElse(other: Option<T>): Option<T>
    {
      if Some? then this else other
    }
  }

  datatype Result<+R, +E> = Success(value: R) | Failure(error: E)

  datatype Outcome<+E> = Pass | Fail(error: E)
}
